=== FILE: README.md ===
# Epever charge controller driver, modelled in Dafny

This project models the decoding and encoding core of `epevermodbus`, a
Python driver for Epever solar charge controllers that speaks Modbus RTU.
The model covers five parts:

- **`extract_bits`** (`bits.dfy`, module `Bits`): the mask-and-shift field
  extractor on Python's unbounded integers. Its third argument, named
  `number_of_bits`, is in fact an unshifted mask. Shifts and AND are
  defined one bit at a time and proved equal to the arithmetic they stand
  for.
- **Status and setting decoders** (`status.dfy` and `settings.dfy`). The
  battery, charging-equipment and discharging-equipment status words
  become records of flags and closed enumerations. Battery type, rated
  voltage, default load on/off and charging mode are table lookups. A code
  outside its table is a decode failure (Python's `KeyError`), never a
  default.
- **Real-time clock codec** (`rtc.dfy`): six date-time fields packed as
  `low + (high << 8)` into three registers. The date-time is rebuilt only
  when Python's `datetime` would accept the fields.
- **Controller facade** (`controller.dfy`). The device is two register
  banks, input and holding, each a map from address to 16-bit word. Every
  accessor returns the sequence of Modbus calls it made, the device
  afterwards, and its result. A read appears once in that sequence and
  stands for the call retried until it succeeds or the budget runs out. An address the bank lacks stands for an
  exchange that still fails after the retries.
- **Battery voltage control block** (`voltage.dfy`): twelve holding
  registers at 0x9003-0x900E. This covers the grouped read, the
  per-slot getters and the grouped read-overlay-write. A grouped write
  refuses an empty update or an unknown keyword before any exchange. A
  successful one sends exactly one 12-register read and then one
  12-register write.

Two further files complete the model:

- `floats.dfy` (module `FloatRescale`) models the IEEE 754 doubles behind
  the grouped write's `/ 100` and `* 100`. It holds both halves of the
  finding below.
- `retry.dfy` (module `Retry`) models the retry policy that the driver
  puts on its reads.

Python floats become exact reals everywhere except in `FloatRescale`.
Python's `int(x)` is `Controller.Truncate`. `FloatRescale.RoundHalfEven`,
Python's `round(x)`, appears only in the correction the finding proposes.

## Model

| member | source | states |
|---|---|---|
| `Bits.ShiftLeftIsMultiplication` | epevermodbus/extract_bits.py:2 | `a << k` equals `a * 2^k` for every integer `a` |
| `Bits.ShiftRightIsDivision` | epevermodbus/extract_bits.py:4 | `a >> k` equals `a // 2^k` for every natural `a` |
| `Bits.BitOfAnd` | epevermodbus/extract_bits.py:3 | a bit of `a & b` is set exactly when it is set in both operands |
| `Bits.AndShiftedMask` | epevermodbus/extract_bits.py:2-3 | ANDing with `m << k` is shifting the data down by `k`, masking with `m`, and shifting back up |
| `Bits.ExtractBits` | epevermodbus/extract_bits.py:1-5 | `extract_bits(data, s, mask)`, which moves the mask up, ANDs and moves back down, equals `(data >> s) & mask` for all arguments |
| `Bits.BitOfExtractBits` | epevermodbus/extract_bits.py:1-5 | bit `i` of the field is set exactly when bit `s + i` of the data and bit `i` of the mask are both set |
| `Bits.ExtractBitsWithinMask` | epevermodbus/extract_bits.py:2-4 | the field never exceeds the mask and has no bit set where the mask has none |
| `Bits.ExtractBitsIgnoresOtherBits` | epevermodbus/extract_bits.py:2-5 | two data words that agree on bits `s .. s + bit_length(mask) - 1` give the same field |
| `Bits.ExtractBitsField` | epevermodbus/extract_bits.py:1-5 | with the mask `2^n - 1` the field is `(data // 2^s) % 2^n`, the `n`-bit number at offset `s` |
| `Bits.ExtractBitsFlag` | epevermodbus/extract_bits.py:1-5 | with the mask `1` the field is 1 when bit `s` is set and 0 otherwise |
| `Bits.ExtractBitsExamples` | test/test_extract_bits.py:7-19 | `extract_bits(11, 2, 0b11) == 2` and `extract_bits(11, 1, 0b1) == 1` |
| `Status.FlagIsBit` | epevermodbus/driver.py:146-151 | `bool(extract_bits(w, k, 0b1))` is true exactly when bit `k` of `w` is set |
| `Status.DecodeBatteryStatus` | epevermodbus/driver.py:125-154 | succeeds exactly when bits 6-4 are at most 2 and bits 2-0 at most 4; a failure reports the temperature code when that one is out of range, else the condition code; on success the flags are bits 15 and 8 and the two enumerations carry the codes of their fields |
| `Status.BatteryStatusIgnoresUnusedBits` | epevermodbus/driver.py:129-154 | words that differ only in bits 3, 7 and 9-14 decode identically |
| `Status.UndefinedBatteryConditionFails` | epevermodbus/driver.py:136-143 | bits 2-0 equal to 0b101 fail the whole decode |
| `Status.DecodeChargingEquipmentStatus` | epevermodbus/driver.py:156-200 | never fails on any word; the input-voltage code is bits 15-14 and the charging code bits 3-2 |
| `Status.ChargingEquipmentFlagsAreBits` | epevermodbus/driver.py:176-200 | each of the eleven flags equals the bit of the word at its offset (13-6, 4, 1, 0) |
| `Status.EqualizationWhenBits3And2Set` | epevermodbus/driver.py:168-174 | bits 3-2 equal to 0b11 decode to equalization charging |
| `Status.DecodeDischargingEquipmentStatus` | epevermodbus/driver.py:202-238 | never fails on any word; the input-voltage code is bits 15-14 and the output-load code bits 13-12 |
| `Status.DischargingEquipmentFlagsAreBits` | epevermodbus/driver.py:222-238 | each of the ten flags equals the bit of the word at its offset (11-4, 1, 0) |
| `Settings.DecodeBatteryType` | epevermodbus/driver.py:272-288 | succeeds exactly for codes 0-12; any other code fails with that code; the decoded type's code range contains the code |
| `Settings.BatteryTypeCodesDecode` | epevermodbus/driver.py:274-287 | every code in a type's range decodes to that type (4-7 LiFePO4, 8-12 LiNiCoMnO2) |
| `Settings.DecodeRatedVoltage` | epevermodbus/driver.py:408-421 | succeeds exactly for codes 0-9, failing with the code otherwise; the decoded class has that code |
| `Settings.RatedVoltageRoundTrip` | epevermodbus/driver.py:410-420 | decoding the code of any rated-voltage class gives the class back |
| `Settings.DecodeLoadDefault` | epevermodbus/driver.py:423-425 | succeeds exactly for codes 0 and 1, with the setting of that code; other codes fail |
| `Settings.DecodeChargingMode` | epevermodbus/driver.py:443-447 | succeeds exactly for codes 0 and 1, with the mode of that code; other codes fail |
| `Rtc.DecodeClock` | epevermodbus/driver.py:496-512 | the six byte fields (year offset by 2000) form the result exactly when they make a valid Gregorian date-time, and the result is "no timestamp" otherwise; nothing is clamped |
| `Rtc.EncodeClock` | epevermodbus/driver.py:521-523 | the registers are `second + 256 * minute`, `hour + 256 * day` and `month + 256 * (year - 2000)` |
| `Rtc.EncodeClockFitsIff` | epevermodbus/driver.py:521-525 | all three encoded registers fit in 16 bits exactly when the year is within 2000-2255 |
| `Rtc.ClockRoundTrip` | epevermodbus/driver.py:496-525 | decoding the encoding of a valid date-time with a year in 2000-2255 gives back all six fields |
| `Controller.Truncate` | epevermodbus/driver.py:353 | `int(x)` is the integer within one of `x` on the side of zero |
| `Controller.ReadRaw` | epevermodbus/driver.py:44-50 | one single-register read; it succeeds exactly when the address exists in the bank the function code selects, answering that word, and otherwise fails naming the address |
| `Controller.ReadScaled` | epevermodbus/driver.py:44-50 | one single-register read with `decimals`; it succeeds exactly when the address exists, and the answer times 10^decimals is the word |
| `Controller.ReadBlock` | epevermodbus/driver.py:53-59 | one block-read call; it succeeds exactly when every address of the block exists, with word `i` taken from address `address + i`; otherwise it fails with a transport failure naming `address` |
| `Controller.WriteBlock` | epevermodbus/driver.py:357 | one block-write call; it succeeds exactly when every value fits in 16 bits and every address exists; an out-of-range value is refused; a failure changes nothing; a success stores each value at its address and leaves the input bank and every other holding register unchanged |
| `Controller.Store` | epevermodbus/driver.py:357 | storing a block keeps the bank's addresses, puts value `i` at `address + i` and leaves every other register as it was |
| `Controller.GetBatteryStatus` | epevermodbus/driver.py:125-127 | one read of input register 0x3200; the result is the battery-status decode of that word, or a transport failure when it is absent |
| `Controller.GetChargingEquipmentStatus` | epevermodbus/driver.py:156-158 | one read of input register 0x3201; the result is the charging-status decode of that word, or a transport failure naming 0x3201 when it is absent |
| `Controller.GetDischargingEquipmentStatus` | epevermodbus/driver.py:202-204 | one read of input register 0x3202; the result is the discharging-status decode of that word, or a transport failure naming 0x3202 when it is absent |
| `Controller.GetBatteryType` | epevermodbus/driver.py:272-288 | one read of holding register 0x9000; it succeeds exactly when the register exists and holds at most 12; the result is the battery-type decode of that word, or a transport failure when it is absent |
| `Controller.GetBatteryRatedVoltage` | epevermodbus/driver.py:408-421 | one read of holding register 0x9067; it succeeds exactly when the register holds at most 9, and the class has that code; a present code above 9 fails with that code, an absent register with a transport failure |
| `Controller.GetDefaultLoadOnOff` | epevermodbus/driver.py:423-425 | one read of holding register 0x906A; it succeeds exactly when the register holds 0 or 1, and the setting has that code; a present code above 1 fails with that code, an absent register with a transport failure |
| `Controller.GetChargingMode` | epevermodbus/driver.py:443-447 | one read of holding register 0x9070; it succeeds exactly when the register holds 0 or 1, and the mode has that code; a present code above 1 fails with that code, an absent register with a transport failure |
| `Controller.ReadClock` | epevermodbus/driver.py:496-506 | three single reads of 0x9013, 0x9014 and 0x9015, in that order; success exactly when all three exist; otherwise the reads stop at the first absent register, which the transport failure names |
| `Controller.GetRtc` | epevermodbus/driver.py:489-512 | succeeds exactly when the three clock registers exist, and then returns the clock decode of their words; otherwise the reads stop at the first absent clock register, which the transport failure names; it never changes the device |
| `Controller.SetRtc` | epevermodbus/driver.py:514-525 | one block write at 0x9013 of the three packed registers; it succeeds exactly when the year is within 2000-2255 and the three clock registers exist; a year outside 2000-2255 is refused as out of range; any failure leaves the device unchanged |
| `Controller.RtcSetThenGet` | epevermodbus/driver.py:489-525 | after setting the clock to a valid date-time with a year in 2000-2255, reading the clock gives that date-time |
| `Retry.Retrying` | epevermodbus/driver.py:45-59 | at most five attempts; stops at the first success; a failure means all five attempts failed; it succeeds exactly when one of the first five answers is a success |
| `VoltageControl.Slot` | epevermodbus/driver.py:20-33 | a slot's offset in the block is its position in the name list, below 12 |
| `VoltageControl.SlotsFollowAddressOrder` | epevermodbus/driver.py:20-33 | the list names all twelve slots, each at its own offset |
| `VoltageControl.NamesDistinct` | epevermodbus/driver.py:20-33 | two slots share a keyword only if they are the same slot |
| `VoltageControl.GetVoltageControl` | epevermodbus/driver.py:306-312 | one 12-register read of the holding bank at 0x9003; it succeeds exactly when the block exists, and then slot `i` is word `0x9003 + i` divided by 100; otherwise it fails with a transport failure naming 0x9003 |
| `VoltageControl.Overrides` | epevermodbus/driver.py:349-350 | the update as slots: a slot is overridden exactly when its keyword is in the update, with the value given for that keyword |
| `VoltageControl.Hundredths` | epevermodbus/driver.py:352-355 | `int(v * 100)`: the word is the value times 100 truncated toward zero, at most one below it for a non-negative value and at most one above it for a negative one |
| `VoltageControl.MergedBlock` | epevermodbus/driver.py:349-355 | twelve words, each slot's word being the override if there is one, else the value read, as truncated hundredths |
| `VoltageControl.ReadMergeWrite` | epevermodbus/driver.py:349-358 | the block read comes first; the write follows exactly when the block exists; an unreadable block ends the call after that one read with a transport failure naming 0x9003; any failure leaves the device unchanged |
| `VoltageControl.SetVoltageControl` | epevermodbus/driver.py:314-358 | an empty update fails with no exchange; an unknown keyword fails with no exchange; otherwise it is the read-overlay-write of the named slots |
| `VoltageControl.HundredthsTruncates` | epevermodbus/driver.py:352-355 | a caller's 13.809 is written as 1380, 655.355 as 65535 and -0.006 as 0 |
| `VoltageControl.HundredthsRoundTrip` | epevermodbus/driver.py:349-355 | in exact arithmetic, a word read as hundredths scales back to the same word |
| `VoltageControl.MergedBlockSlot` | epevermodbus/driver.py:349-355 | each slot of the merged block is the override as truncated hundredths, or the old word itself |
| `VoltageControl.ReadMergeWriteSends` | epevermodbus/driver.py:349-358 | on a readable block, exactly the block read and then the write of the merged block |
| `VoltageControl.ReadMergeWriteWrites` | epevermodbus/driver.py:349-358 | on a readable block, exactly two calls; the second writes twelve words at 0x9003, slot by slot the override as truncated hundredths or the unchanged old word |
| `VoltageControl.ReadMergeWriteSucceedsIff` | epevermodbus/driver.py:349-358 | the grouped write succeeds exactly when the block exists and every merged word, an override truncated to hundredths or an old word, fits in 16 bits |
| `VoltageControl.ReadMergeWriteStores` | epevermodbus/driver.py:349-358 | a success stores each slot's merged word (the truncated override or the old word) and leaves the input bank and every register outside the block unchanged |
| `VoltageControl.ReadBackSlot` | epevermodbus/driver.py:306-312 | a readable block reports each slot's stored word in hundredths |
| `VoltageControl.ReadMergeWriteThenGet` | epevermodbus/driver.py:306-358 | after a successful write, reading the block back gives each overridden slot its override truncated to hundredths and every other slot its old value |
| `VoltageControl.SetThenGetVoltageControl` | epevermodbus/driver.py:326-358 | a successful grouped write had a non-empty update of known keywords, and reading back gives each named slot its new value truncated to hundredths and every other slot its old value |
| `VoltageControl.VoltageGettersMatchBlock` | epevermodbus/driver.py:360-406 | the getter of the slot at offset `i` reads address `0x9003 + i` with 2 decimals and function code 3 |
| `VoltageControl.GetVoltageSlot` | epevermodbus/driver.py:360-406 | one two-decimal read of holding register `0x9003 + Slot(p)`; it succeeds exactly when that register exists, and the answer times 100 is its word |
| `VoltageControl.GetVoltageSlotReads` | epevermodbus/driver.py:360-406 | each slot getter is a two-decimal holding read of that slot's own register |
| `VoltageControl.ReadHundredths` | epevermodbus/driver.py:360-362 | a two-decimal read of a present holding register gives the word divided by 100 |
| `VoltageControl.VoltageSlotAgreesWithBlock` | epevermodbus/driver.py:360-406 | on a readable block, each slot getter returns the value the grouped read reports for that slot |
| `FloatRescale.NearestDoubleError` | epevermodbus/driver.py:310 | rounding a non-negative real to a double moves it by at most one part in 2^53 |
| `FloatRescale.NearestDoubleUnique` | epevermodbus/driver.py:310 | a double strictly within half a unit of a positive real is the only double nearest to it |
| `FloatRescale.TruncatedRescaleLowersWord` | epevermodbus/driver.py:349-355 | as written, the stored word 29 is read as the double nearest 0.29; times 100 that rounds to 28.999999999999996, and `int` makes it 28 |
| `FloatRescale.RoundedRescaleRecoversWord` | epevermodbus/driver.py:349-355 | with rounding in place of truncation, every 16-bit word read and scaled back in doubles gives the same word |

## Left out

- Modbus RTU transport, serial settings and the `minimalmodbus` internals (epevermodbus/driver.py:35-43): framing, CRC and signed handling are library code. Register contents are inputs (the two banks), and a read of an absent address is the failure that survives the retries.
- Retry timing: `Retry.Retrying` models the five-attempt bound, but not the 200 ms sleep. It is a standalone policy. The facade takes its outcome as given: a register is either answered or fails for good.
- The driver retries reads only; `write_register` and `write_registers` are called without the retry decorator. The model follows the code here, so writes make a single attempt.
- Floating point: values in volts are exact reals, and `/ 100` is exact division. Only `FloatRescale` models IEEE 754 doubles, and only for the positive, normal values below 2^16 that the grouped write meets.
- VoltageControl.MergedBlock: scales in exact reals, where an untouched slot read as `w / 100` is always written back as `w`. The hundredth that the driver's doubles can lose on such a slot is modelled only in `FloatRescale`.
- The driver's 16-bit range check happens inside the Modbus client, outside this code. It is modelled as the `ValueOutOfRange` failure of a block write, raised before any register changes.
- The grouped read returns a Python dictionary keyed by name. The model returns the twelve values as a sequence in name order; `Slot` gives each name's position.
- `set_battery_voltage_control_registers` (keyword form) only forwards to the dictionary form. Both are `SetVoltageControl`, with keywords as the map's keys.
- The `datetime` fields below the second (microsecond, time zone) are not read or written by the driver, so `DateTime` omits them. A year the driver cannot encode is refused by the write, as the client would refuse it.
- The discharging-status dictionary lists `output_over_voltage` twice with the same bit; the record has the field once.
- The `fault` flag (bit 1) of the charging status is reported as read. The driver's own comment says the controller sets it without a fault; that hardware behaviour is not modelled.
- The one-line pass-through getters (epevermodbus/driver.py:73-123, 240-270, 290-304, 427-441, 449-487), `set_battery_capacity` and `set_temperature_compensation_coefficient`: each is a single library call, and none has a member of its own. The getters pass constant arguments; the two setters forward the caller's value, the coefficient first multiplied by 100 as a float. Only the single-register unsigned getters have the shape of `Controller.ReadScaled`. The two-register `read_long` getters (word order `BYTEORDER_LITTLE_SWAP`, then `/ 100`), the signed reads and the `read_bit` getters rest on client decoding that is not modelled.
- `command_line.py`, `examples/write_battery_params.py` and `setup.py`: presentation, a demo script and packaging.

## Findings

| source | as written | input that shows it | evidently intended | confidence | as-written member | corrected member |
|---|---|---|---|---|---|---|
| epevermodbus/driver.py:349-355 | each slot is written back as `int(values_dict[name] * 100)`, where an untouched slot holds the float `word / 100` just read | a stored word of 29 (0.29 V): 29 / 100 is the double 0.28999999999999998, times 100 is 28.999999999999996, and `int` writes 28; a caller's own 0.29 is written as 28 too | untouched slots are written back unchanged | high (proved about a model of IEEE 754 round-to-nearest; not executed) | `FloatRescale.TruncatedRescaleLowersWord` | `FloatRescale.RoundedRescaleRecoversWord` |

The correction rounds the double product for an untouched slot instead of
truncating it. The rest of the model scales in exact reals, where the
driver's truncation already gives an untouched word back
(`VoltageControl.HundredthsRoundTrip`), so it keeps the driver's `int` for
every slot, and a caller's value is still truncated as the driver does.

=== FILE: bits.dfy ===
/**
 Python's integer bit operations on non-negative integers, and the
 driver's `extract_bits` helper built from them.

 Python integers are unbounded, so nothing here is limited to 16 bits:
 a register value is simply a natural number.
 */
module Bits {

  /** 2 raised to the power `k`. */
  function Pow2(k: nat): (r: nat)
    ensures r >= 1
  {
    if k == 0 then 1 else 2 * Pow2(k - 1)
  }

  /** Python's `a << k`: `a` doubled `k` times, so a natural number stays natural. */
  function ShiftLeft(a: int, k: nat): (r: int)
    ensures a >= 0 ==> r >= 0
  {
    if k == 0 then a else 2 * ShiftLeft(a, k - 1)
  }

  /** Python's `a >> k` on a non-negative integer: `a` halved `k` times, rounding down. */
  function ShiftRight(a: nat, k: nat): nat
  {
    if k == 0 then a else ShiftRight(a / 2, k - 1)
  }

  /** Python's `a & b` on non-negative integers, one bit at a time from the least significant end. */
  function And(a: nat, b: nat): nat
    decreases a
  {
    if a == 0 || b == 0 then 0
    else 2 * And(a / 2, b / 2) + (if a % 2 == 1 && b % 2 == 1 then 1 else 0)
  }

  /** Bit `i` of `x` is set (the coefficient of 2^i in its binary expansion is 1). */
  predicate Bit(x: nat, i: nat)
  {
    ShiftRight(x, i) % 2 == 1
  }

  /** Python's `x.bit_length()`: the number of binary digits of `x`. */
  function BitLength(x: nat): nat
  {
    if x == 0 then 0 else 1 + BitLength(x / 2)
  }

  /**
   The driver's `extract_bits(data, start_bit, number_of_bits)`. Despite its
   name the third argument is an unshifted mask: it is moved up to
   `start_bit`, ANDed with the data, and the result is moved back down.
   That is the same as moving the data down first and masking it, as
   `(data >> start_bit) & mask`.
   */
  function ExtractBits(data: nat, startBit: nat, mask: nat): (field: nat)
    ensures field == And(ShiftRight(data, startBit), mask)
  {
    AndShiftedMask(data, mask, startBit);
    ShiftRightUndoesShiftLeft(And(ShiftRight(data, startBit), mask), startBit);
    ShiftRight(And(data, ShiftLeft(mask, startBit)), startBit)
  }

  // ---------------------------------------------------------------------
  // Shifts as multiplication and division by powers of two
  // ---------------------------------------------------------------------

  /** Quotient and remainder are the only pair that reconstructs `a`. */
  lemma DivModUnique(a: int, d: int, q: int, r: int)
    requires d > 0 && 0 <= r < d && a == d * q + r
    ensures a / d == q && a % d == r
  {
    var q', r' := a / d, a % d;
    assert d * q' + r' == d * q + r;
    var k := q - q';
    assert d * k == r' - r by {
      assert d * k == d * q - d * q';
    }
    if k >= 1 {
      assert d * k >= d by { MultiplyAtLeastOnce(d, k); }
    } else if k <= -1 {
      assert d * (-k) >= d by { MultiplyAtLeastOnce(d, -k); }
    }
  }

  /** A positive number taken at least once is at least itself. */
  lemma MultiplyAtLeastOnce(d: int, k: int)
    requires d > 0 && k >= 1
    ensures d * k >= d
  {
    assert d * k == d + d * (k - 1);
  }

  /** Halving first and then dividing by `p` is dividing by `2p`, and the remainders line up. */
  lemma HalveThenDivide(a: nat, p: nat)
    requires p >= 1
    ensures (a / 2) / p == a / (2 * p)
    ensures a % (2 * p) == 2 * ((a / 2) % p) + a % 2
  {
    var q, r := (a / 2) / p, (a / 2) % p;
    assert a / 2 == p * q + r;
    assert a == (2 * p) * q + (2 * r + a % 2);
    DivModUnique(a, 2 * p, q, 2 * r + a % 2);
  }

  /** `a << k` is `a * 2^k`. */
  lemma {:induction false} ShiftLeftIsMultiplication(a: int, k: nat)
    ensures ShiftLeft(a, k) == a * Pow2(k)
  {
    if k != 0 {
      ShiftLeftIsMultiplication(a, k - 1);
      assert a * Pow2(k) == 2 * (a * Pow2(k - 1));
    }
  }

  /** `a >> k` is `a // 2^k`. */
  lemma {:induction false} ShiftRightIsDivision(a: nat, k: nat)
    ensures ShiftRight(a, k) == a / Pow2(k)
  {
    if k != 0 {
      ShiftRightIsDivision(a / 2, k - 1);
      HalveThenDivide(a, Pow2(k - 1));
    }
  }

  /** Shifting right by `s` and then by `i` is shifting right by `s + i`. */
  lemma {:induction false} ShiftRightTwice(x: nat, s: nat, i: nat)
    ensures ShiftRight(ShiftRight(x, s), i) == ShiftRight(x, s + i)
    decreases s
  {
    if s != 0 {
      ShiftRightTwice(x / 2, s - 1, i);
    }
  }

  /** Shifting left by `k` and then right by `k` is the identity on naturals. */
  lemma {:induction false} ShiftRightUndoesShiftLeft(x: nat, k: nat)
    ensures ShiftRight(ShiftLeft(x, k), k) == x
  {
    if k != 0 {
      var y := ShiftLeft(x, k - 1);
      assert (2 * y) / 2 == y;
      ShiftRightTwice(2 * y, 1, k - 1);
      ShiftRightUndoesShiftLeft(x, k - 1);
    }
  }

  /** Two numbers with the same bit at every position are equal. */
  lemma {:induction false} BitsDetermineNumber(x: nat, y: nat)
    requires forall i: nat :: Bit(x, i) == Bit(y, i)
    ensures x == y
    decreases x + y
  {
    assert Bit(x, 0) == Bit(y, 0);
    if x != 0 || y != 0 {
      forall i: nat
        ensures Bit(x / 2, i) == Bit(y / 2, i)
      {
        assert Bit(x, i + 1) == Bit(y, i + 1);
      }
      BitsDetermineNumber(x / 2, y / 2);
    }
  }

  /** Bits of a right shift are the original bits further up. */
  lemma BitOfShiftRight(x: nat, s: nat, i: nat)
    ensures Bit(ShiftRight(x, s), i) <==> Bit(x, s + i)
  {
    ShiftRightTwice(x, s, i);
  }

  /** No bit at or beyond `BitLength(m)` is set in `m`. */
  lemma {:induction false} NoBitBeyondLength(m: nat, i: nat)
    requires i >= BitLength(m)
    ensures !Bit(m, i)
    decreases m
  {
    if m == 0 {
      ZeroHasNoBits(i);
    } else {
      NoBitBeyondLength(m / 2, i - 1);
    }
  }

  /** Zero has no bit set. */
  lemma {:induction false} ZeroHasNoBits(i: nat)
    ensures ShiftRight(0, i) == 0
  {
    if i != 0 {
      ZeroHasNoBits(i - 1);
    }
  }

  // ---------------------------------------------------------------------
  // AND
  // ---------------------------------------------------------------------

  /** A bit of `a & b` is set exactly when it is set in both operands. */
  lemma {:induction false} BitOfAnd(a: nat, b: nat, i: nat)
    ensures Bit(And(a, b), i) <==> Bit(a, i) && Bit(b, i)
    decreases i
  {
    if a == 0 || b == 0 {
      ZeroHasNoBits(i);
    } else if i != 0 {
      var c := And(a / 2, b / 2);
      assert And(a, b) / 2 == c;
      BitOfAnd(a / 2, b / 2, i - 1);
    }
  }

  /** `a & b` never exceeds `b`. */
  lemma {:induction false} AndAtMostRight(a: nat, b: nat)
    ensures And(a, b) <= b
    decreases a
  {
    if a != 0 && b != 0 {
      AndAtMostRight(a / 2, b / 2);
    }
  }

  /** ANDing with an even number: the lowest bit drops out and the rest is `(a / 2) & c`. */
  lemma AndDouble(a: nat, c: nat)
    ensures And(a, 2 * c) == 2 * And(a / 2, c)
  {
    assert (2 * c) / 2 == c && (2 * c) % 2 == 0;
  }

  /** The `n` low bits of `a`, read off one at a time. */
  function LowBits(a: nat, n: nat): nat
  {
    if n == 0 then 0 else 2 * LowBits(a / 2, n - 1) + a % 2
  }

  /** The `n` low bits of `a` are `a % 2^n`. */
  lemma {:induction false} LowBitsIsRemainder(a: nat, n: nat)
    ensures LowBits(a, n) == a % Pow2(n)
  {
    if n != 0 {
      LowBitsIsRemainder(a / 2, n - 1);
      HalveThenDivide(a, Pow2(n - 1));
    }
  }

  /** ANDing with the low mask `2^n - 1` keeps the `n` low bits. */
  lemma {:induction false} AndLowMask(a: nat, n: nat)
    ensures And(a, Pow2(n) - 1) == LowBits(a, n)
    decreases n
  {
    if n != 0 {
      var p := Pow2(n - 1);
      assert Pow2(n) - 1 == 2 * (p - 1) + 1;
      assert (Pow2(n) - 1) / 2 == p - 1 && (Pow2(n) - 1) % 2 == 1;
      AndLowMask(a / 2, n - 1);
      if a == 0 {
        ZeroLowBits(n);
      }
    }
  }

  /** Zero has no low bits. */
  lemma {:induction false} ZeroLowBits(n: nat)
    ensures LowBits(0, n) == 0
  {
    if n != 0 {
      ZeroLowBits(n - 1);
    }
  }

  /** ANDing with a shifted mask is shifting the data down, masking, and shifting back up. */
  lemma {:induction false} AndShiftedMask(a: nat, m: nat, k: nat)
    ensures And(a, ShiftLeft(m, k)) == ShiftLeft(And(ShiftRight(a, k), m), k)
    decreases k
  {
    if k != 0 {
      AndDouble(a, ShiftLeft(m, k - 1));
      AndShiftedMask(a / 2, m, k - 1);
    }
  }

  // ---------------------------------------------------------------------
  // extract_bits
  // ---------------------------------------------------------------------

  /**
   Bit `i` of the extracted field is bit `start_bit + i` of the data,
   kept only where the mask has a 1.
   */
  lemma BitOfExtractBits(data: nat, startBit: nat, mask: nat, i: nat)
    ensures Bit(ExtractBits(data, startBit, mask), i) <==> Bit(data, startBit + i) && Bit(mask, i)
  {
    BitOfAnd(ShiftRight(data, startBit), mask, i);
    BitOfShiftRight(data, startBit, i);
  }

  /** The field never exceeds the mask and has no bit set outside it. */
  lemma ExtractBitsWithinMask(data: nat, startBit: nat, mask: nat)
    ensures ExtractBits(data, startBit, mask) <= mask
    ensures forall i: nat :: Bit(ExtractBits(data, startBit, mask), i) ==> Bit(mask, i)
  {
    AndAtMostRight(ShiftRight(data, startBit), mask);
    forall i: nat
      ensures Bit(ExtractBits(data, startBit, mask), i) ==> Bit(mask, i)
    {
      BitOfExtractBits(data, startBit, mask, i);
    }
  }

  /**
   Only bits `start_bit .. start_bit + bit_length(mask) - 1` of the data
   influence the field.
   */
  lemma ExtractBitsIgnoresOtherBits(d1: nat, d2: nat, startBit: nat, mask: nat)
    requires forall j: nat :: startBit <= j < startBit + BitLength(mask) ==> Bit(d1, j) == Bit(d2, j)
    ensures ExtractBits(d1, startBit, mask) == ExtractBits(d2, startBit, mask)
  {
    forall i: nat
      ensures Bit(ExtractBits(d1, startBit, mask), i) == Bit(ExtractBits(d2, startBit, mask), i)
    {
      BitOfExtractBits(d1, startBit, mask, i);
      BitOfExtractBits(d2, startBit, mask, i);
      if i >= BitLength(mask) {
        NoBitBeyondLength(mask, i);
      }
    }
    BitsDetermineNumber(ExtractBits(d1, startBit, mask), ExtractBits(d2, startBit, mask));
  }

  /** With a mask of `n` ones the field is the `n`-bit number found at `start_bit`. */
  lemma ExtractBitsField(data: nat, startBit: nat, n: nat)
    ensures ExtractBits(data, startBit, Pow2(n) - 1) == (data / Pow2(startBit)) % Pow2(n)
  {
    AndLowMask(ShiftRight(data, startBit), n);
    LowBitsIsRemainder(ShiftRight(data, startBit), n);
    ShiftRightIsDivision(data, startBit);
  }

  /** A one-bit mask reads a single bit as 0 or 1. */
  lemma ExtractBitsFlag(data: nat, startBit: nat)
    ensures ExtractBits(data, startBit, 1) == (if Bit(data, startBit) then 1 else 0)
  {
    ExtractBitsField(data, startBit, 1);
    ShiftRightIsDivision(data, startBit);
  }

  /** The two worked examples of the driver's unit tests: bits 3-2 and bit 1 of 11 (0b1011). */
  lemma ExtractBitsExamples()
    ensures ExtractBits(11, 2, 3) == 2
    ensures ExtractBits(11, 1, 1) == 1
  {
    ExtractBitsField(11, 2, 2);
    ExtractBitsField(11, 1, 1);
  }
}

=== FILE: controller.dfy ===
/**
 The charge-controller facade: the named accessors and mutators over a
 Modbus device, with every exchange the driver issues recorded in order.

 The device is two register banks, input registers (function code 4) and
 holding registers (function code 3), each a map from address to 16-bit
 word. An address the bank lacks stands for an exchange that keeps
 failing, so that a read of it surfaces a transport failure once the
 retries are spent. Writes are not retried.
 */
module Controller {
  import opened Results
  import opened Status
  import opened Settings
  import opened Rtc

  const READ_HOLDING: nat := 3
  const READ_INPUT: nat := 4

  /**
   One call the driver makes on its Modbus client. A read stands for the
   retried call, repeated until it succeeds or the retry budget runs out.
   */
  datatype Request =
    | ReadRegister(address: nat, decimals: nat, functionCode: nat)
    | ReadRegisters(address: nat, count: nat, functionCode: nat)
    | WriteRegisters(address: nat, values: seq<int>)

  datatype Device = Device(inputRegisters: map<nat, Word>, holdingRegisters: map<nat, Word>)

  /** What an operation did: the calls it made, the device afterwards, and its outcome. */
  datatype Exchange<T> = Exchange(requests: seq<Request>, device: Device, result: Result<T, Error>)

  /** The bank a read function code addresses. */
  function Bank(dev: Device, functionCode: nat): map<nat, Word>
  {
    if functionCode == READ_INPUT then dev.inputRegisters else dev.holdingRegisters
  }

  /** All of `count` consecutive registers from `address` exist in `bank`. */
  predicate HasBlock(bank: map<nat, Word>, address: nat, count: nat)
  {
    forall a :: address <= a < address + count ==> a in bank
  }

  /** 10 raised to the power `k`. */
  function Pow10(k: nat): (r: nat)
    ensures r >= 1
  {
    if k == 0 then 1 else 10 * Pow10(k - 1)
  }

  /** Python's `int(x)` on a float: truncation toward zero. */
  function Truncate(x: real): (n: int)
    ensures x >= 0.0 ==> n as real <= x < n as real + 1.0
    ensures x < 0.0 ==> n as real - 1.0 < x <= n as real
  {
    if x >= 0.0 then x.Floor else -((-x).Floor)
  }

  // ---------------------------------------------------------------------
  // Modbus client calls
  // ---------------------------------------------------------------------

  /**
   `retriable_read_register(address, 0, function_code)`: one exchange that
   answers with the word at `address` of the bank the function code
   selects, or fails naming that address.
   */
  function ReadRaw(dev: Device, address: nat, functionCode: nat): (x: Exchange<Word>)
    ensures x.requests == [ReadRegister(address, 0, functionCode)] && x.device == dev
    ensures x.result.Success? <==> address in Bank(dev, functionCode)
    ensures x.result.Success? ==> x.result.value == Bank(dev, functionCode)[address]
    ensures x.result.Failure? ==> x.result.error == TransportFailure(address)
  {
    var bank := Bank(dev, functionCode);
    Exchange([ReadRegister(address, 0, functionCode)], dev,
      if address in bank then Success(bank[address]) else Failure(TransportFailure(address)))
  }

  /**
   `retriable_read_register(address, decimals, function_code)`: the word
   divided by 10^decimals, so that scaling the answer back up gives the
   word again.
   */
  function ReadScaled(dev: Device, address: nat, decimals: nat, functionCode: nat): (x: Exchange<real>)
    ensures x.requests == [ReadRegister(address, decimals, functionCode)] && x.device == dev
    ensures x.result.Success? <==> address in Bank(dev, functionCode)
    ensures x.result.Success? ==> x.result.value * Pow10(decimals) as real == Bank(dev, functionCode)[address] as real
    ensures x.result.Failure? ==> x.result.error == TransportFailure(address)
  {
    var bank := Bank(dev, functionCode);
    Exchange([ReadRegister(address, decimals, functionCode)], dev,
      if address in bank then Success(bank[address] as real / Pow10(decimals) as real)
      else Failure(TransportFailure(address)))
  }

  /** `retriable_read_registers(address, count, function_code)`: one exchange for a block of raw words. */
  function ReadBlock(dev: Device, address: nat, count: nat, functionCode: nat): (x: Exchange<seq<Word>>)
    ensures x.requests == [ReadRegisters(address, count, functionCode)] && x.device == dev
    ensures x.result.Success? <==> HasBlock(Bank(dev, functionCode), address, count)
    ensures x.result.Success? ==>
      |x.result.value| == count &&
      forall i :: 0 <= i < count ==> x.result.value[i] == Bank(dev, functionCode)[address + i]
    ensures x.result.Failure? ==> x.result.error == TransportFailure(address)
  {
    var bank := Bank(dev, functionCode);
    Exchange([ReadRegisters(address, count, functionCode)], dev,
      if HasBlock(bank, address, count) then Success(seq(count, i requires 0 <= i < count => bank[address + i]))
      else Failure(TransportFailure(address)))
  }

  /**
   `write_registers(address, values)`: one exchange storing a block. The
   client refuses a value outside 0..65535 before sending anything.
   */
  function WriteBlock(dev: Device, address: nat, values: seq<int>): (x: Exchange<()>)
    ensures x.requests == [WriteRegisters(address, values)]
    ensures x.result.Success? <==>
      (forall i :: 0 <= i < |values| ==> FitsWord(values[i])) && HasBlock(dev.holdingRegisters, address, |values|)
    ensures x.result.Failure? ==> x.device == dev
    ensures !(forall i :: 0 <= i < |values| ==> FitsWord(values[i])) ==> x.result == Failure(ValueOutOfRange)
    ensures x.result.Success? ==>
      && x.device.inputRegisters == dev.inputRegisters
      && x.device.holdingRegisters.Keys == dev.holdingRegisters.Keys
      && (forall i :: 0 <= i < |values| ==> x.device.holdingRegisters[address + i] == values[i])
      && (forall a :: a in dev.holdingRegisters && !(address <= a < address + |values|) ==>
            x.device.holdingRegisters[a] == dev.holdingRegisters[a])
  {
    var requests := [WriteRegisters(address, values)];
    if !(forall i :: 0 <= i < |values| ==> FitsWord(values[i])) then
      Exchange(requests, dev, Failure(ValueOutOfRange))
    else if !HasBlock(dev.holdingRegisters, address, |values|) then
      Exchange(requests, dev, Failure(TransportFailure(address)))
    else
      Exchange(requests, dev.(holdingRegisters := Store(dev.holdingRegisters, address, values)), Success(()))
  }

  /** A bank after storing `values` at consecutive addresses from `address`, one register at a time. */
  function Store(bank: map<nat, Word>, address: nat, values: seq<int>): (r: map<nat, Word>)
    requires forall i :: 0 <= i < |values| ==> FitsWord(values[i])
    requires HasBlock(bank, address, |values|)
    ensures r.Keys == bank.Keys
    ensures forall i :: 0 <= i < |values| ==> r[address + i] == values[i]
    ensures forall a :: a in bank && !(address <= a < address + |values|) ==> r[a] == bank[a]
    decreases |values|
  {
    if |values| == 0 then bank
    else
      assert FitsWord(values[0]);
      var rest := Store(bank[address := values[0] as Word], address + 1, values[1..]);
      assert forall i :: 1 <= i < |values| ==> rest[address + i] == values[i] by {
        forall i | 1 <= i < |values| ensures rest[address + i] == values[i] {
          assert rest[(address + 1) + (i - 1)] == values[1..][i - 1];
        }
      }
      rest
  }

  /** One register read through the retry policy, then a decode of the raw word. */
  function ReadDecoded<T>(dev: Device, address: nat, functionCode: nat, decode: nat -> Result<T, Error>): Exchange<T>
  {
    var read := ReadRaw(dev, address, functionCode);
    match read.result
    case Failure(e) => Exchange(read.requests, dev, Failure(e))
    case Success(w) => Exchange(read.requests, dev, decode(w))
  }

  // ---------------------------------------------------------------------
  // Status and enumerated settings
  // ---------------------------------------------------------------------

  /** `get_battery_status`: input register 0x3200. */
  function GetBatteryStatus(dev: Device): (x: Exchange<BatteryStatus>)
    ensures x.requests == [ReadRegister(0x3200, 0, READ_INPUT)] && x.device == dev
    ensures x.result == if 0x3200 in dev.inputRegisters then DecodeBatteryStatus(dev.inputRegisters[0x3200])
                        else Failure(TransportFailure(0x3200))
  {
    ReadDecoded(dev, 0x3200, READ_INPUT, DecodeBatteryStatus)
  }

  /** `get_charging_equipment_status`: input register 0x3201; only a failed read can fail it. */
  function GetChargingEquipmentStatus(dev: Device): (x: Exchange<ChargingEquipmentStatus>)
    ensures x.requests == [ReadRegister(0x3201, 0, READ_INPUT)] && x.device == dev
    ensures x.result.Success? <==> 0x3201 in dev.inputRegisters
    ensures x.result == if 0x3201 in dev.inputRegisters then DecodeChargingEquipmentStatus(dev.inputRegisters[0x3201])
                        else Failure(TransportFailure(0x3201))
  {
    ReadDecoded(dev, 0x3201, READ_INPUT, DecodeChargingEquipmentStatus)
  }

  /** `get_discharging_equipment_status`: input register 0x3202; only a failed read can fail it. */
  function GetDischargingEquipmentStatus(dev: Device): (x: Exchange<DischargingEquipmentStatus>)
    ensures x.requests == [ReadRegister(0x3202, 0, READ_INPUT)] && x.device == dev
    ensures x.result.Success? <==> 0x3202 in dev.inputRegisters
    ensures x.result == if 0x3202 in dev.inputRegisters then DecodeDischargingEquipmentStatus(dev.inputRegisters[0x3202])
                        else Failure(TransportFailure(0x3202))
  {
    ReadDecoded(dev, 0x3202, READ_INPUT, DecodeDischargingEquipmentStatus)
  }

  /** `get_battery_type`: holding register 0x9000. */
  function GetBatteryType(dev: Device): (x: Exchange<BatteryType>)
    ensures x.requests == [ReadRegister(0x9000, 0, READ_HOLDING)] && x.device == dev
    ensures x.result.Success? <==> 0x9000 in dev.holdingRegisters && dev.holdingRegisters[0x9000] <= 12
    ensures x.result == if 0x9000 in dev.holdingRegisters then DecodeBatteryType(dev.holdingRegisters[0x9000])
      else Failure(TransportFailure(0x9000))
  {
    ReadDecoded(dev, 0x9000, READ_HOLDING, DecodeBatteryType)
  }

  /** `get_battery_rated_voltage`: holding register 0x9067. */
  function GetBatteryRatedVoltage(dev: Device): (x: Exchange<RatedVoltage>)
    ensures x.requests == [ReadRegister(0x9067, 0, READ_HOLDING)] && x.device == dev
    ensures x.result.Success? <==> 0x9067 in dev.holdingRegisters && dev.holdingRegisters[0x9067] <= 9
    ensures x.result.Success? ==> RatedVoltageCode(x.result.value) == dev.holdingRegisters[0x9067]
    ensures x.result == if 0x9067 in dev.holdingRegisters then DecodeRatedVoltage(dev.holdingRegisters[0x9067])
      else Failure(TransportFailure(0x9067))
  {
    ReadDecoded(dev, 0x9067, READ_HOLDING, DecodeRatedVoltage)
  }

  /** `get_default_load_on_off_in_manual_mode`: holding register 0x906A. */
  function GetDefaultLoadOnOff(dev: Device): (x: Exchange<LoadDefault>)
    ensures x.requests == [ReadRegister(0x906A, 0, READ_HOLDING)] && x.device == dev
    ensures x.result.Success? <==> 0x906A in dev.holdingRegisters && dev.holdingRegisters[0x906A] <= 1
    ensures x.result.Success? ==> LoadDefaultCode(x.result.value) == dev.holdingRegisters[0x906A]
    ensures x.result == if 0x906A in dev.holdingRegisters then DecodeLoadDefault(dev.holdingRegisters[0x906A])
      else Failure(TransportFailure(0x906A))
  {
    ReadDecoded(dev, 0x906A, READ_HOLDING, DecodeLoadDefault)
  }

  /** `get_charging_mode`: holding register 0x9070. */
  function GetChargingMode(dev: Device): (x: Exchange<ChargingMode>)
    ensures x.requests == [ReadRegister(0x9070, 0, READ_HOLDING)] && x.device == dev
    ensures x.result.Success? <==> 0x9070 in dev.holdingRegisters && dev.holdingRegisters[0x9070] <= 1
    ensures x.result.Success? ==> ChargingModeCode(x.result.value) == dev.holdingRegisters[0x9070]
    ensures x.result == if 0x9070 in dev.holdingRegisters then DecodeChargingMode(dev.holdingRegisters[0x9070])
      else Failure(TransportFailure(0x9070))
  {
    ReadDecoded(dev, 0x9070, READ_HOLDING, DecodeChargingMode)
  }

  // ---------------------------------------------------------------------
  // Real-time clock, holding registers 0x9013-0x9015
  // ---------------------------------------------------------------------

  const RTC_ADDRESS: nat := 0x9013

  /** The reads `get_rtc` issues, in order, when all of them are answered. */
  const CLOCK_READS: seq<Request> :=
    [ReadRegister(0x9013, 0, READ_HOLDING), ReadRegister(0x9014, 0, READ_HOLDING), ReadRegister(0x9015, 0, READ_HOLDING)]

  /**
   The three single-register reads of `get_rtc`, in address order; the
   first failure ends the call, naming the first absent clock register.
   */
  function ReadClock(dev: Device): (x: Exchange<ClockRegisters>)
    ensures x.device == dev
    ensures x.result.Success? <==> HasBlock(dev.holdingRegisters, RTC_ADDRESS, 3)
    ensures x.result.Success? ==>
      && x.requests == CLOCK_READS
      && x.result.value == ClockRegisters(dev.holdingRegisters[0x9013], dev.holdingRegisters[0x9014],
                                          dev.holdingRegisters[0x9015])
    ensures !(0x9013 in dev.holdingRegisters) ==>
      x.requests == CLOCK_READS[..1] && x.result == Failure(TransportFailure(0x9013))
    ensures 0x9013 in dev.holdingRegisters && !(0x9014 in dev.holdingRegisters) ==>
      x.requests == CLOCK_READS[..2] && x.result == Failure(TransportFailure(0x9014))
    ensures 0x9013 in dev.holdingRegisters && 0x9014 in dev.holdingRegisters && !(0x9015 in dev.holdingRegisters) ==>
      x.requests == CLOCK_READS && x.result == Failure(TransportFailure(0x9015))
  {
    var ms := ReadRaw(dev, RTC_ADDRESS, READ_HOLDING);
    match ms.result
    case Failure(e) => Exchange(ms.requests, dev, Failure(e))
    case Success(minuteSecond) =>
      var hd := ReadRaw(dev, RTC_ADDRESS + 1, READ_HOLDING);
      match hd.result
      case Failure(e) => Exchange(ms.requests + hd.requests, dev, Failure(e))
      case Success(dayHour) =>
        var my := ReadRaw(dev, RTC_ADDRESS + 2, READ_HOLDING);
        match my.result
        case Failure(e) => Exchange(ms.requests + hd.requests + my.requests, dev, Failure(e))
        case Success(yearMonth) =>
          Exchange(ms.requests + hd.requests + my.requests, dev, Success(ClockRegisters(minuteSecond, dayHour, yearMonth)))
  }

  /** `get_rtc`: the three clock reads, then the clock decode. */
  function GetRtc(dev: Device): (x: Exchange<Option<DateTime>>)
    ensures x.device == dev
    ensures x.result.Success? <==> HasBlock(dev.holdingRegisters, RTC_ADDRESS, 3)
    ensures x.result.Success? ==>
      && x.requests == CLOCK_READS
      && x.result.value == DecodeClock(dev.holdingRegisters[0x9013], dev.holdingRegisters[0x9014],
                                       dev.holdingRegisters[0x9015])
    ensures !(0x9013 in dev.holdingRegisters) ==>
      x.requests == CLOCK_READS[..1] && x.result == Failure(TransportFailure(0x9013))
    ensures 0x9013 in dev.holdingRegisters && !(0x9014 in dev.holdingRegisters) ==>
      x.requests == CLOCK_READS[..2] && x.result == Failure(TransportFailure(0x9014))
    ensures 0x9013 in dev.holdingRegisters && 0x9014 in dev.holdingRegisters && !(0x9015 in dev.holdingRegisters) ==>
      x.requests == CLOCK_READS && x.result == Failure(TransportFailure(0x9015))
  {
    var read := ReadClock(dev);
    match read.result
    case Failure(e) => Exchange(read.requests, dev, Failure(e))
    case Success(regs) =>
      Exchange(read.requests, dev, Success(DecodeClock(regs.minuteSecond, regs.dayHour, regs.yearMonth)))
  }

  /** `set_rtc`: one block write of the three packed registers at 0x9013. */
  function SetRtc(dev: Device, t: DateTime): (x: Exchange<()>)
    requires ValidDateTime(t)
    ensures |x.requests| == 1 && x.requests[0].WriteRegisters? && x.requests[0].address == 0x9013
    ensures x.requests[0].values == [t.second + 256 * t.minute, t.hour + 256 * t.day, t.month + 256 * (t.year - 2000)]
    ensures !(FIRST_YEAR <= t.year <= LAST_YEAR) ==> x.result == Failure(ValueOutOfRange) && x.device == dev
    ensures x.result.Success? <==> FIRST_YEAR <= t.year <= LAST_YEAR && HasBlock(dev.holdingRegisters, RTC_ADDRESS, 3)
    ensures x.result.Failure? ==> x.device == dev
  {
    var regs := EncodeClock(t);
    var values := [regs.minuteSecond, regs.dayHour, regs.yearMonth];
    assert !(FIRST_YEAR <= t.year <= LAST_YEAR) ==> !FitsWord(values[2]);
    WriteBlock(dev, RTC_ADDRESS, values)
  }

  /** Setting the clock to an in-range date-time and reading it back gives that date-time. */
  lemma RtcSetThenGet(dev: Device, t: DateTime)
    requires ValidDateTime(t) && FIRST_YEAR <= t.year <= LAST_YEAR
    requires HasBlock(dev.holdingRegisters, RTC_ADDRESS, 3)
    ensures SetRtc(dev, t).result.Success?
    ensures GetRtc(SetRtc(dev, t).device).result == Success(Some(t))
  {
    ClockRoundTrip(t);
    SetRtcStores(dev, t);
    var after := SetRtc(dev, t).device;
    assert HasBlock(after.holdingRegisters, RTC_ADDRESS, 3);
  }

  /** An in-range clock write succeeds and leaves the three packed words in the clock registers. */
  lemma SetRtcStores(dev: Device, t: DateTime)
    requires ValidDateTime(t) && FIRST_YEAR <= t.year <= LAST_YEAR
    requires HasBlock(dev.holdingRegisters, RTC_ADDRESS, 3)
    ensures var x := SetRtc(dev, t);
      && x.result.Success?
      && x.device.holdingRegisters.Keys == dev.holdingRegisters.Keys
      && x.device.holdingRegisters[0x9013] == EncodeClock(t).minuteSecond
      && x.device.holdingRegisters[0x9014] == EncodeClock(t).dayHour
      && x.device.holdingRegisters[0x9015] == EncodeClock(t).yearMonth
  {
    var regs := EncodeClock(t);
    var values := [regs.minuteSecond, regs.dayHour, regs.yearMonth];
    var write := WriteBlock(dev, RTC_ADDRESS, values);
    assert SetRtc(dev, t) == write;
    assert write.device.holdingRegisters[RTC_ADDRESS + 0] == values[0];
    assert write.device.holdingRegisters[RTC_ADDRESS + 1] == values[1];
    assert write.device.holdingRegisters[RTC_ADDRESS + 2] == values[2];
  }
}

=== FILE: floats.dfy ===
/**
 The binary floating point behind the grouped voltage write. The driver
 reads a raw word `w`, reports it as the float `w / 100`, and writes a
 value back as `int(v * 100)`. Both the division and the multiplication
 round to the nearest IEEE 754 double, so `v * 100` can land just below
 `w`, and truncating it then loses a hundredth. Rounding instead of
 truncating gives every 16-bit word back.

 A positive double is `mantissa / 2^exponent` with a 53-bit mantissa;
 the values met here are all positive and below 2^16, so the exponent is
 a natural number and no subnormal, infinity or NaN arises.
 */
module FloatRescale {
  import opened Results
  import opened Bits
  import opened Controller

  /** The smallest and one past the largest normalised 53-bit mantissa. */
  const MANTISSA_LOW: int := 0x10_0000_0000_0000
  const MANTISSA_HIGH: int := 0x20_0000_0000_0000

  /** A non-negative double, `mantissa / 2^exponent`. */
  datatype Double = Double(mantissa: nat, exponent: nat)

  function Value(d: Double): real
  {
    d.mantissa as real / Pow2(d.exponent) as real
  }

  /**
   `d` is a double that IEEE 754 round-to-nearest may return for the
   non-negative real `x`: zero for zero, and otherwise a mantissa within
   half a unit of `x` scaled into the 53-bit range (the mantissa may reach
   2^53 when `x` rounds up into the next binade). A tie admits both
   neighbours; strictly inside half a unit there is only one.
   */
  predicate NearestDouble(x: real, d: Double)
  {
    if x == 0.0 then d.mantissa == 0
    else
      var scaled := x * Pow2(d.exponent) as real;
      && x > 0.0
      && MANTISSA_LOW as real <= scaled < MANTISSA_HIGH as real
      && MANTISSA_LOW <= d.mantissa <= MANTISSA_HIGH
      && -0.5 <= d.mantissa as real - scaled <= 0.5
  }

  /** `d` is the one double that round-to-nearest can return for `x`. */
  ghost predicate OnlyNearest(x: real, d: Double)
  {
    NearestDouble(x, d) && forall e :: NearestDouble(x, e) ==> e == d
  }

  /** Rounding to a double moves a value by at most one part in 2^53. */
  lemma NearestDoubleError(x: real, d: Double)
    requires NearestDouble(x, d)
    ensures -(x / MANTISSA_HIGH as real) <= Value(d) - x <= x / MANTISSA_HIGH as real
  {
    if x == 0.0 {
      assert Value(d) == 0.0;
    } else {
      ScaledError(d.mantissa as real, x, Pow2(d.exponent) as real);
    }
  }

  /**
   The arithmetic of `NearestDoubleError`: a mantissa `m` within half a
   unit of `x * p`, itself at least 2^52, is within `x / 2^53` of `x` once
   divided by `p`.
   */
  lemma ScaledError(m: real, x: real, p: real)
    requires p > 0.0 && x > 0.0
    requires MANTISSA_LOW as real <= x * p
    requires -0.5 <= m - x * p <= 0.5
    ensures -(x / MANTISSA_HIGH as real) <= m / p - x <= x / MANTISSA_HIGH as real
  {
    var h := MANTISSA_HIGH as real;
    var q := m / p - x;
    assert q * p == m - x * p;
    assert 0.5 <= (x * p) / h;
    assert (x * p) / h == (x / h) * p;
    assert -((x / h) * p) <= q * p <= (x / h) * p;
  }

  /**
   Python's `round(x)` on a float: the nearest integer, a tie going to the
   even neighbour.
   */
  function RoundHalfEven(x: real): (n: int)
    ensures -0.5 <= n as real - x <= 0.5
    ensures n as real - x == 0.5 || x - n as real == 0.5 ==> n % 2 == 0
  {
    var f := x.Floor;
    var fraction := x - f as real;
    if fraction < 0.5 then f
    else if fraction > 0.5 then f + 1
    else if f % 2 == 0 then f
    else f + 1
  }

  /** A value closer than one half to an integer rounds to that integer. */
  lemma RoundHalfEvenNearInteger(x: real, k: int)
    requires -0.5 < x - k as real < 0.5
    ensures RoundHalfEven(x) == k
  {
    var n := RoundHalfEven(x);
    assert -1.0 < n as real - k as real < 1.0;
  }

  /**
   The last step of the driver as written: `d2`, the double that a slot's
   `w / 100 * 100` rounds to, truncated by `int`.
   */
  function TruncatedRescale(d2: Double): int
  {
    Truncate(Value(d2))
  }

  /** The same slot with the product rounded instead of truncated. */
  function RoundedRescale(d2: Double): int
  {
    RoundHalfEven(Value(d2))
  }

  /** The double nearest to 0.29 and the double nearest to it times 100. */
  const POINT_29: Double := Double(5224175567749775, 54)
  const POINT_29_TIMES_100: Double := Double(8162774324609023, 48)

  /** The exact product of `POINT_29` and 100, before it is rounded. */
  const POINT_29_PRODUCT: real := 522417556774977500.0 / 18014398509481984.0

  /**
   The word 29 comes back as 28: 29 / 100 can only round to `POINT_29`,
   its product with 100 only to `POINT_29_TIMES_100`, which is
   28.999999999999996 and truncates to 28. A caller's own 0.29 is the
   same double, so it is written as 28 as well.
   */
  lemma TruncatedRescaleLowersWord()
    ensures NearestDouble(29.0 / 100.0, POINT_29)
    ensures NearestDouble(Value(POINT_29) * 100.0, POINT_29_TIMES_100)
    ensures OnlyNearest(29.0 / 100.0, POINT_29)
    ensures OnlyNearest(Value(POINT_29) * 100.0, POINT_29_TIMES_100)
    ensures TruncatedRescale(POINT_29_TIMES_100) == 28
  {
    Point29Rounds();
    Point29ProductRounds();
    var x := 29.0 / 100.0;
    forall d1 | NearestDouble(x, d1)
      ensures d1 == POINT_29
    {
      OnlyPoint29(d1);
    }
    var y := POINT_29_PRODUCT;
    forall d2 | NearestDouble(y, d2)
      ensures d2 == POINT_29_TIMES_100
    {
      OnlyPoint29Product(d2);
    }
  }

  /** The only double nearest to 29 / 100. */
  lemma OnlyPoint29(d: Double)
    requires NearestDouble(29.0 / 100.0, d)
    ensures d == POINT_29
  {
    Point29Rounds();
    NearestDoubleUnique(29.0 / 100.0, POINT_29, d);
  }

  /** The only double nearest to `POINT_29` times 100. */
  lemma OnlyPoint29Product(d: Double)
    requires NearestDouble(POINT_29_PRODUCT, d)
    ensures d == POINT_29_TIMES_100
  {
    Point29ProductRounds();
    NearestDoubleUnique(POINT_29_PRODUCT, POINT_29_TIMES_100, d);
  }

  /** 29 / 100 lies strictly within half a unit of `POINT_29`. */
  lemma Point29Rounds()
    ensures NearestDouble(29.0 / 100.0, POINT_29)
    ensures -0.5 < POINT_29.mantissa as real - (29.0 / 100.0) * Pow2(POINT_29.exponent) as real < 0.5
  {
    Pow2Values();
  }

  /** `POINT_29` times 100 lies strictly within half a unit of `POINT_29_TIMES_100`, which is below 29. */
  lemma Point29ProductRounds()
    ensures Value(POINT_29) * 100.0 == POINT_29_PRODUCT
    ensures NearestDouble(POINT_29_PRODUCT, POINT_29_TIMES_100)
    ensures -0.5 < POINT_29_TIMES_100.mantissa as real - POINT_29_PRODUCT * Pow2(POINT_29_TIMES_100.exponent) as real < 0.5
    ensures 28.0 <= Value(POINT_29_TIMES_100) < 29.0
  {
    Pow2Values();
  }

  /**
   Away from a tie, round-to-nearest has one answer: a double strictly
   within half a unit of `x` is the only double nearest to `x`.
   */
  lemma NearestDoubleUnique(x: real, d: Double, e: Double)
    requires x > 0.0
    requires NearestDouble(x, d) && NearestDouble(x, e)
    requires -0.5 < d.mantissa as real - x * Pow2(d.exponent) as real < 0.5
    ensures d == e
  {
    SameBinade(x, d, e);
    SameBinade(x, e, d);
    SameMantissa(x, d, e);
  }

  /** Two doubles nearest to the same positive value share their exponent. */
  lemma SameBinade(x: real, d: Double, e: Double)
    requires x > 0.0
    requires NearestDouble(x, d) && NearestDouble(x, e)
    ensures e.exponent <= d.exponent
  {
    ExponentBound(x, d.exponent, e.exponent);
  }

  /** Only one exponent scales a positive value into the mantissa range. */
  lemma ExponentBound(x: real, a: nat, b: nat)
    requires x > 0.0
    requires MANTISSA_LOW as real <= x * Pow2(a) as real
    requires x * Pow2(b) as real < MANTISSA_HIGH as real
    ensures b <= a
  {
    if a < b {
      DoublingExponent(x, a, b);
      assert false;
    }
  }

  /** With the exponent shared, a mantissa strictly within half a unit is the only candidate. */
  lemma SameMantissa(x: real, d: Double, e: Double)
    requires x > 0.0 && d.exponent == e.exponent
    requires NearestDouble(x, d) && NearestDouble(x, e)
    requires -0.5 < d.mantissa as real - x * Pow2(d.exponent) as real < 0.5
    ensures d.mantissa == e.mantissa
  {
  }

  /** Raising the exponent at least doubles the scaled value. */
  lemma DoublingExponent(x: real, a: nat, b: nat)
    requires x > 0.0 && a < b
    ensures x * Pow2(b) as real >= 2.0 * (x * Pow2(a) as real)
  {
    Pow2Monotone(a + 1, b);
    assert Pow2(a + 1) == 2 * Pow2(a);
    MultiplyMonotone(x, (2 * Pow2(a)) as real, Pow2(b) as real);
  }

  /** Multiplying by a positive number keeps an order. */
  lemma MultiplyMonotone(x: real, a: real, b: real)
    requires x > 0.0 && a <= b
    ensures x * a <= x * b
  {
    assert x * b - x * a == x * (b - a);
  }

  /** Exponents add when powers of two multiply. */
  lemma {:induction false} Pow2Add(a: nat, b: nat)
    ensures Pow2(a + b) == Pow2(a) * Pow2(b)
  {
    if b > 0 {
      Pow2Add(a, b - 1);
    }
  }

  /** The powers of two the 0.29 example needs. */
  lemma Pow2Values()
    ensures Pow2(48) == 0x1_0000_0000_0000
    ensures Pow2(54) == 0x40_0000_0000_0000
  {
    assert Pow2(6) == 0x40 && Pow2(12) == 0x1000;
    Pow2Add(12, 12);
    Pow2Add(24, 24);
    Pow2Add(48, 6);
  }

  /** Powers of two grow with the exponent. */
  lemma {:induction false} Pow2Monotone(a: nat, b: nat)
    requires a <= b
    ensures Pow2(a) <= Pow2(b)
  {
    if a < b {
      Pow2Monotone(a, b - 1);
    }
  }

  /**
   Rounding restores every 16-bit word: whichever doubles IEEE 754 picks
   for `w / 100` and then for that times 100, the product is within 3w/2^53
   of `w`, well inside one half, so it rounds to `w`.
   */
  lemma RoundedRescaleRecoversWord(w: nat)
    requires w < WORD_LIMIT
    ensures forall d1, d2 :: NearestDouble(w as real / 100.0, d1) && NearestDouble(Value(d1) * 100.0, d2) ==>
      RoundedRescale(d2) == w
  {
    forall d1, d2 | NearestDouble(w as real / 100.0, d1) && NearestDouble(Value(d1) * 100.0, d2)
      ensures RoundedRescale(d2) == w
    {
      RoundedRescaleOf(w, d1, d2);
    }
  }

  /** `RoundedRescaleRecoversWord` for one choice of the two doubles. */
  lemma RoundedRescaleOf(w: nat, d1: Double, d2: Double)
    requires w < WORD_LIMIT
    requires NearestDouble(w as real / 100.0, d1)
    requires NearestDouble(Value(d1) * 100.0, d2)
    ensures RoundedRescale(d2) == w
  {
    var x := w as real / 100.0;
    var h := MANTISSA_HIGH as real;
    NearestDoubleError(x, d1);
    var y := Value(d1) * 100.0;
    assert -(w as real / h) <= y - w as real <= w as real / h;
    NearestDoubleError(y, d2);
    assert y <= 2.0 * w as real;
    assert y / h <= 2.0 * w as real / h;
    assert 3.0 * w as real / h < 0.5;
    RoundHalfEvenNearInteger(Value(d2), w);
  }
}

=== FILE: results.dfy ===
/**
 Failure-carrying values shared by the whole driver model, and the
 driver's error taxonomy.
 */
module Results {

  /** A value that may be absent, like Python's `None`. */
  datatype Option<+T> = None | Some(value: T)

  /** Either a value or the error the driver raises instead. */
  datatype Result<+T, +E> = Success(value: T) | Failure(error: E) {

    predicate IsFailure() {
      Failure?
    }

    function PropagateFailure<U>(): Result<U, E>
      requires Failure?
    {
      Failure(error)
    }

    function Extract(): T
      requires Success?
    {
      value
    }
  }

  /** The failures the driver surfaces to its caller. */
  datatype Error =
    /** a Modbus exchange still failed once the driver's retries were spent */
    | TransportFailure(address: nat)
    /** a raw code has no entry in its decoding table (Python `KeyError`) */
    | UnknownCode(code: nat)
    /** a grouped write named no parameter at all (Python `TypeError`) */
    | MissingArguments
    /** a grouped write named a parameter outside the known twelve (Python `TypeError`) */
    | UnexpectedArgument
    /** the Modbus client refuses to put a value outside 0..65535 into a register */
    | ValueOutOfRange

  /** The largest value a 16-bit register holds, plus one. */
  const WORD_LIMIT: nat := 0x1_0000

  /** The content of one 16-bit Modbus register. */
  type Word = x: nat | x < WORD_LIMIT

  /** An integer a 16-bit register can hold. */
  predicate FitsWord(x: int)
  {
    0 <= x < WORD_LIMIT
  }
}

=== FILE: retry.dfy ===
/**
 The retry policy the driver puts on every register read: up to five
 attempts, 200 ms apart, stopping at the first success and otherwise
 surfacing the last failure. Register writes carry no retry.
 */
module Retry {
  import opened Results

  /** `stop_max_attempt_number` of the retry decorator. */
  const MAX_ATTEMPTS: nat := 5

  /**
   Runs a read under the retry policy. `answers[j]` is what the transport
   answers on attempt `j + 1`; `attempts` is how many exchanges were made.
   */
  method Retrying<T>(answers: seq<Result<T, Error>>) returns (r: Result<T, Error>, attempts: nat)
    requires |answers| >= MAX_ATTEMPTS
    ensures 1 <= attempts <= MAX_ATTEMPTS
    ensures r == answers[attempts - 1]
    ensures forall j :: 0 <= j < attempts - 1 ==> answers[j].Failure?
    ensures r.Failure? ==> attempts == MAX_ATTEMPTS
    ensures r.Success? <==> exists j :: 0 <= j < MAX_ATTEMPTS && answers[j].Success?
  {
    attempts := 1;
    r := answers[0];
    while r.Failure? && attempts < MAX_ATTEMPTS
      invariant 1 <= attempts <= MAX_ATTEMPTS
      invariant r == answers[attempts - 1]
      invariant forall j :: 0 <= j < attempts - 1 ==> answers[j].Failure?
    {
      r := answers[attempts];
      attempts := attempts + 1;
    }
  }
}

=== FILE: rtc.dfy ===
/**
 The real-time-clock codec. The controller keeps its clock in three
 holding registers, 0x9013 to 0x9015, each packing two byte-wide fields
 as `low + (high << 8)`:

   0x9013: second (low), minute (high)
   0x9014: hour (low), day (high)
   0x9015: month (low), year - 2000 (high)
 */
module Rtc {
  import opened Results
  import opened Bits

  /** A Python `datetime` reduced to the six fields the clock registers carry. */
  datatype DateTime = DateTime(year: int, month: int, day: int, hour: int, minute: int, second: int)

  /** Gregorian leap years, as Python's `calendar.isleap`. */
  predicate IsLeapYear(year: int)
  {
    year % 4 == 0 && (year % 100 != 0 || year % 400 == 0)
  }

  /** The number of days of a month in a given year. */
  function DaysInMonth(year: int, month: int): int
    requires 1 <= month <= 12
  {
    if month == 2 then (if IsLeapYear(year) then 29 else 28)
    else if month in {4, 6, 9, 11} then 30
    else 31
  }

  /** The field combinations for which Python's `datetime(...)` does not raise `ValueError`. */
  predicate ValidDateTime(t: DateTime)
  {
    && 1 <= t.year <= 9999
    && 1 <= t.month <= 12
    && 1 <= t.day <= DaysInMonth(t.year, t.month)
    && 0 <= t.hour <= 23
    && 0 <= t.minute <= 59
    && 0 <= t.second <= 59
  }

  /** The years the one-byte year offset can express. */
  const FIRST_YEAR: int := 2000
  const LAST_YEAR: int := 2255

  /** The three clock registers, in address order. */
  datatype ClockRegisters = ClockRegisters(minuteSecond: int, dayHour: int, yearMonth: int)

  /**
   `get_rtc` after its three register reads: the six byte fields are
   unpacked and a date-time is built only if Python's `datetime` would
   accept them; anything else is "no timestamp", never a clamped value.
   */
  function DecodeClock(minuteSecond: nat, dayHour: nat, yearMonth: nat): (r: Option<DateTime>)
    ensures
      var fields := DateTime(
        2000 + (yearMonth / 256) % 256, yearMonth % 256, (dayHour / 256) % 256,
        dayHour % 256, (minuteSecond / 256) % 256, minuteSecond % 256);
      r == if ValidDateTime(fields) then Some(fields) else None
  {
    assert Pow2(0) == 1 && Pow2(8) == 256;
    ExtractBitsField(minuteSecond, 0, 8);
    ExtractBitsField(minuteSecond, 8, 8);
    ExtractBitsField(dayHour, 0, 8);
    ExtractBitsField(dayHour, 8, 8);
    ExtractBitsField(yearMonth, 0, 8);
    ExtractBitsField(yearMonth, 8, 8);
    var second := ExtractBits(minuteSecond, 0, 0xFF);
    var minute := ExtractBits(minuteSecond, 8, 0xFF);
    var hour := ExtractBits(dayHour, 0, 0xFF);
    var day := ExtractBits(dayHour, 8, 0xFF);
    var month := ExtractBits(yearMonth, 0, 0xFF);
    var year := ExtractBits(yearMonth, 8, 0xFF) + 2000;
    var t := DateTime(year, month, day, hour, minute, second);
    if ValidDateTime(t) then Some(t) else None
  }

  /**
   `set_rtc` before its register write: each pair of fields packed as
   `low + (high << 8)`. Nothing bounds the year here, so a year outside
   2000..2255 yields a register value outside 16 bits.
   */
  function EncodeClock(t: DateTime): (regs: ClockRegisters)
    requires ValidDateTime(t)
    ensures regs.minuteSecond == t.second + 256 * t.minute
    ensures regs.dayHour == t.hour + 256 * t.day
    ensures regs.yearMonth == t.month + 256 * (t.year - 2000)
  {
    assert Pow2(8) == 256;
    ShiftLeftIsMultiplication(t.minute, 8);
    ShiftLeftIsMultiplication(t.day, 8);
    ShiftLeftIsMultiplication(t.year - 2000, 8);
    ClockRegisters(
      t.second + ShiftLeft(t.minute, 8),
      t.hour + ShiftLeft(t.day, 8),
      t.month + ShiftLeft(t.year - 2000, 8))
  }

  /** All three encoded registers fit in 16 bits exactly when the year is one the offset byte can hold. */
  lemma EncodeClockFitsIff(t: DateTime)
    requires ValidDateTime(t)
    ensures var regs := EncodeClock(t);
      FitsWord(regs.minuteSecond) && FitsWord(regs.dayHour) && FitsWord(regs.yearMonth)
      <==> FIRST_YEAR <= t.year <= LAST_YEAR
  {
  }

  /** Decoding the registers an in-range date-time encodes to gives back all six fields. */
  lemma ClockRoundTrip(t: DateTime)
    requires ValidDateTime(t) && FIRST_YEAR <= t.year <= LAST_YEAR
    ensures var regs := EncodeClock(t);
      && regs.minuteSecond >= 0 && regs.dayHour >= 0 && regs.yearMonth >= 0
      && DecodeClock(regs.minuteSecond, regs.dayHour, regs.yearMonth) == Some(t)
  {
    var regs := EncodeClock(t);
    DivModUnique(regs.minuteSecond, 256, t.minute, t.second);
    DivModUnique(regs.dayHour, 256, t.day, t.hour);
    DivModUnique(regs.yearMonth, 256, t.year - 2000, t.month);
    DivModUnique(t.minute, 256, 0, t.minute);
    DivModUnique(t.day, 256, 0, t.day);
    DivModUnique(t.year - 2000, 256, 0, t.year - 2000);
    var fields := DateTime(
      2000 + (regs.yearMonth / 256) % 256, regs.yearMonth % 256, (regs.dayHour / 256) % 256,
      regs.dayHour % 256, (regs.minuteSecond / 256) % 256, regs.minuteSecond % 256);
    assert fields == t;
  }
}

=== FILE: settings.dfy ===
/**
 Decoding of the enumerated setting registers: battery type (0x9000),
 battery rated voltage (0x9067), default load on/off in manual mode
 (0x906A) and charging mode (0x9070). A raw value outside its table is a
 decode failure, never a default.
 */
module Settings {
  import opened Results
  import opened Status

  // ---------------------------------------------------------------------
  // Battery type, register 0x9000
  // ---------------------------------------------------------------------

  /** The driver folds the four lithium-iron-phosphate codes and the five lithium NiCoMn codes together. */
  datatype BatteryType = UserDefined | Sealed | Gel | Flooded | LiFePO4 | LiNiCoMnO2

  const BATTERY_TYPES: seq<BatteryType> := [
    UserDefined, Sealed, Gel, Flooded,
    LiFePO4, LiFePO4, LiFePO4, LiFePO4,
    LiNiCoMnO2, LiNiCoMnO2, LiNiCoMnO2, LiNiCoMnO2, LiNiCoMnO2
  ]

  /** The first and last raw code that decode to each battery type. */
  function BatteryTypeCodes(t: BatteryType): (nat, nat)
  {
    match t
    case UserDefined => (0, 0)
    case Sealed => (1, 1)
    case Gel => (2, 2)
    case Flooded => (3, 3)
    case LiFePO4 => (4, 7)
    case LiNiCoMnO2 => (8, 12)
  }

  /** `get_battery_type` after the register read. */
  function DecodeBatteryType(code: nat): (r: Result<BatteryType, Error>)
    ensures r.Success? <==> code <= 12
    ensures r.Failure? ==> r.error == UnknownCode(code)
    ensures r.Success? ==> BatteryTypeCodes(r.value).0 <= code <= BatteryTypeCodes(r.value).1
  {
    Lookup(BATTERY_TYPES, code)
  }

  /** Every code in a type's range decodes to that type, so each type is reachable. */
  lemma BatteryTypeCodesDecode(t: BatteryType, code: nat)
    requires BatteryTypeCodes(t).0 <= code <= BatteryTypeCodes(t).1
    ensures DecodeBatteryType(code) == Success(t)
  {
  }

  // ---------------------------------------------------------------------
  // Battery rated voltage, register 0x9067
  // ---------------------------------------------------------------------

  datatype RatedVoltage = Auto | V12 | V24 | V36 | V48 | V60 | V110 | V120 | V220 | V240

  const RATED_VOLTAGES: seq<RatedVoltage> := [Auto, V12, V24, V36, V48, V60, V110, V120, V220, V240]

  /** The raw code of each rated voltage class. */
  function RatedVoltageCode(v: RatedVoltage): nat
  {
    match v
    case Auto => 0
    case V12 => 1
    case V24 => 2
    case V36 => 3
    case V48 => 4
    case V60 => 5
    case V110 => 6
    case V120 => 7
    case V220 => 8
    case V240 => 9
  }

  /** `get_battery_rated_voltage` after the register read. */
  function DecodeRatedVoltage(code: nat): (r: Result<RatedVoltage, Error>)
    ensures r.Success? <==> code <= 9
    ensures r.Failure? ==> r.error == UnknownCode(code)
    ensures r.Success? ==> RatedVoltageCode(r.value) == code
  {
    Lookup(RATED_VOLTAGES, code)
  }

  /** Decoding the code of a rated voltage class gives that class back. */
  lemma RatedVoltageRoundTrip(v: RatedVoltage)
    ensures DecodeRatedVoltage(RatedVoltageCode(v)) == Success(v)
  {
    match v
    case Auto =>
    case V12 =>
    case V24 =>
    case V36 =>
    case V48 =>
    case V60 =>
    case V110 =>
    case V120 =>
    case V220 =>
    case V240 =>
  }

  // ---------------------------------------------------------------------
  // Default load on/off in manual mode, register 0x906A
  // ---------------------------------------------------------------------

  datatype LoadDefault = LoadOff | LoadOn

  function LoadDefaultCode(l: LoadDefault): nat
  {
    match l
    case LoadOff => 0
    case LoadOn => 1
  }

  /** `get_default_load_on_off_in_manual_mode` after the register read. */
  function DecodeLoadDefault(code: nat): (r: Result<LoadDefault, Error>)
    ensures r.Success? <==> code <= 1
    ensures r.Failure? ==> r.error == UnknownCode(code)
    ensures r.Success? ==> LoadDefaultCode(r.value) == code
  {
    Lookup([LoadOff, LoadOn], code)
  }

  // ---------------------------------------------------------------------
  // Charging mode, register 0x9070
  // ---------------------------------------------------------------------

  datatype ChargingMode = VoltageCompensation | StateOfCharge

  function ChargingModeCode(m: ChargingMode): nat
  {
    match m
    case VoltageCompensation => 0
    case StateOfCharge => 1
  }

  /** `get_charging_mode` after the register read. */
  function DecodeChargingMode(code: nat): (r: Result<ChargingMode, Error>)
    ensures r.Success? <==> code <= 1
    ensures r.Failure? ==> r.error == UnknownCode(code)
    ensures r.Success? ==> ChargingModeCode(r.value) == code
  {
    Lookup([VoltageCompensation, StateOfCharge], code)
  }
}

=== FILE: status.dfy ===
/**
 Decoding of the three bit-packed status registers (input registers
 0x3200, 0x3201 and 0x3202) into fixed records of flags and closed
 enumerations.

 Each decoder applies `extract_bits` at the offsets the controller's
 register map fixes and looks the enumerated fields up in closed tables;
 a code with no table entry fails the whole decode (Python's `KeyError`),
 so no partially filled record is ever produced.
 */
module Status {
  import opened Results
  import opened Bits

  /** Looks `code` up in a closed decoding table, failing like a Python dict lookup. */
  function Lookup<T>(table: seq<T>, code: nat): Result<T, Error>
  {
    if code < |table| then Success(table[code]) else Failure(UnknownCode(code))
  }

  /** A one-bit field read as a boolean: Python's `bool(extract_bits(w, bit, 0b1))`. */
  function Flag(w: nat, bit: nat): bool
  {
    ExtractBits(w, bit, 1) != 0
  }

  /** Reading a one-bit field tells whether that bit of the word is set. */
  lemma FlagIsBit(w: nat, bit: nat)
    ensures Flag(w, bit) <==> Bit(w, bit)
  {
    ExtractBitsFlag(w, bit);
  }

  // ---------------------------------------------------------------------
  // Battery status, register 0x3200
  // ---------------------------------------------------------------------

  /** Bits 6-4 of the battery status register. */
  datatype TemperatureWarning = TemperatureNormal | OverTemperature | LowTemperature

  /** Bits 2-0 of the battery status register. */
  datatype BatteryCondition = BatteryNormal | OverVoltage | UnderVoltage | OverDischarge | BatteryFault

  const TEMPERATURE_WARNINGS: seq<TemperatureWarning> := [TemperatureNormal, OverTemperature, LowTemperature]
  const BATTERY_CONDITIONS: seq<BatteryCondition> :=
    [BatteryNormal, OverVoltage, UnderVoltage, OverDischarge, BatteryFault]

  /** The raw code the controller uses for each temperature warning. */
  function TemperatureCode(t: TemperatureWarning): nat
  {
    match t
    case TemperatureNormal => 0
    case OverTemperature => 1
    case LowTemperature => 2
  }

  /** The raw code the controller uses for each battery condition. */
  function ConditionCode(c: BatteryCondition): nat
  {
    match c
    case BatteryNormal => 0
    case OverVoltage => 1
    case UnderVoltage => 2
    case OverDischarge => 3
    case BatteryFault => 4
  }

  datatype BatteryStatus = BatteryStatus(
    wrongRatedVoltage: bool,         // bit 15
    innerResistanceAbnormal: bool,   // bit 8
    temperature: TemperatureWarning, // bits 6-4
    condition: BatteryCondition      // bits 2-0
  )

  /**
   `get_battery_status` after the register read. The temperature field is
   looked up first, so when both fields are out of their tables its code is
   the one reported.
   */
  function DecodeBatteryStatus(w: nat): (r: Result<BatteryStatus, Error>)
    ensures r.Success? <==> (w / 16) % 8 <= 2 && w % 8 <= 4
    ensures r.Failure? ==> r.error == UnknownCode(if (w / 16) % 8 > 2 then (w / 16) % 8 else w % 8)
    ensures r.Success? ==>
      && r.value.wrongRatedVoltage == Bit(w, 15)
      && r.value.innerResistanceAbnormal == Bit(w, 8)
      && TemperatureCode(r.value.temperature) == (w / 16) % 8
      && ConditionCode(r.value.condition) == w % 8
  {
    ExtractBitsField(w, 4, 3);
    ExtractBitsField(w, 0, 3);
    FlagIsBit(w, 15);
    FlagIsBit(w, 8);
    var temperature :- Lookup(TEMPERATURE_WARNINGS, ExtractBits(w, 4, 7));
    var condition :- Lookup(BATTERY_CONDITIONS, ExtractBits(w, 0, 7));
    Success(BatteryStatus(Flag(w, 15), Flag(w, 8), temperature, condition))
  }

  /** Bits 3, 7 and 9-14 of the battery status register play no part in its decoding. */
  lemma BatteryStatusIgnoresUnusedBits(w1: nat, w2: nat)
    requires forall j: nat :: j in {0, 1, 2, 4, 5, 6, 8, 15} ==> Bit(w1, j) == Bit(w2, j)
    ensures DecodeBatteryStatus(w1) == DecodeBatteryStatus(w2)
  {
    assert BitLength(7) == 3 && BitLength(1) == 1;
    ExtractBitsIgnoresOtherBits(w1, w2, 4, 7);
    ExtractBitsIgnoresOtherBits(w1, w2, 0, 7);
    ExtractBitsIgnoresOtherBits(w1, w2, 15, 1);
    ExtractBitsIgnoresOtherBits(w1, w2, 8, 1);
  }

  /** An undefined battery condition such as 0b101 in bits 2-0 fails the whole decode. */
  lemma UndefinedBatteryConditionFails(w: nat)
    requires w % 8 == 5
    ensures DecodeBatteryStatus(w).Failure?
  {
  }

  // ---------------------------------------------------------------------
  // Charging equipment status, register 0x3201
  // ---------------------------------------------------------------------

  /** Bits 15-14 of the charging equipment status register. */
  datatype InputVoltageStatus = InputNormal | NoInputPower | HigherInput | InputVoltageError

  /** Bits 3-2 of the charging equipment status register. */
  datatype ChargingStatus = NoCharging | Float | Boost | Equalization

  const INPUT_VOLTAGE_STATUSES: seq<InputVoltageStatus> :=
    [InputNormal, NoInputPower, HigherInput, InputVoltageError]
  const CHARGING_STATUSES: seq<ChargingStatus> := [NoCharging, Float, Boost, Equalization]

  function InputVoltageCode(s: InputVoltageStatus): nat
  {
    match s
    case InputNormal => 0
    case NoInputPower => 1
    case HigherInput => 2
    case InputVoltageError => 3
  }

  function ChargingCode(s: ChargingStatus): nat
  {
    match s
    case NoCharging => 0
    case Float => 1
    case Boost => 2
    case Equalization => 3
  }

  datatype ChargingEquipmentStatus = ChargingEquipmentStatus(
    inputVoltage: InputVoltageStatus,     // bits 15-14
    chargingMosfetShort: bool,            // bit 13
    chargingOrAntiReverseMosfetOpen: bool, // bit 12
    antiReverseMosfetShort: bool,         // bit 11
    inputOverCurrent: bool,               // bit 10
    loadOverCurrent: bool,                // bit 9
    loadShortCircuit: bool,               // bit 8
    loadMosfetShort: bool,                // bit 7
    disequilibriumInThreeCircuits: bool,  // bit 6
    pvInputShort: bool,                   // bit 4
    charging: ChargingStatus,             // bits 3-2
    fault: bool,                          // bit 1, reported as read even though it is seen set without a fault
    running: bool                         // bit 0
  )

  /**
   `get_charging_equipment_status` after the register read. Both tables
   cover every 2-bit code, so the decode never fails.
   */
  function DecodeChargingEquipmentStatus(w: nat): (r: Result<ChargingEquipmentStatus, Error>)
    ensures r.Success?
    ensures InputVoltageCode(r.value.inputVoltage) == (w / 0x4000) % 4
    ensures ChargingCode(r.value.charging) == (w / 4) % 4
  {
    assert Pow2(2) == 4 && Pow2(14) == 0x4000;
    ExtractBitsField(w, 14, 2);
    ExtractBitsField(w, 2, 2);
    var inputCode := ExtractBits(w, 14, 3);
    var chargingCode := ExtractBits(w, 2, 3);
    assert inputCode == (w / 0x4000) % 4 && chargingCode == (w / 4) % 4;
    match (Lookup(INPUT_VOLTAGE_STATUSES, inputCode), Lookup(CHARGING_STATUSES, chargingCode))
    case (Failure(e), _) => Failure(e)
    case (_, Failure(e)) => Failure(e)
    case (Success(inputVoltage), Success(charging)) =>
      Success(ChargingEquipmentStatus(
        inputVoltage,
        Flag(w, 13), Flag(w, 12), Flag(w, 11), Flag(w, 10), Flag(w, 9),
        Flag(w, 8), Flag(w, 7), Flag(w, 6), Flag(w, 4),
        charging,
        Flag(w, 1), Flag(w, 0)))
  }

  /** Every flag of the charging equipment status is the bit of the word at its offset. */
  lemma ChargingEquipmentFlagsAreBits(w: nat)
    ensures var s := DecodeChargingEquipmentStatus(w).value;
      && s.chargingMosfetShort == Bit(w, 13)
      && s.chargingOrAntiReverseMosfetOpen == Bit(w, 12)
      && s.antiReverseMosfetShort == Bit(w, 11)
      && s.inputOverCurrent == Bit(w, 10)
      && s.loadOverCurrent == Bit(w, 9)
      && s.loadShortCircuit == Bit(w, 8)
      && s.loadMosfetShort == Bit(w, 7)
      && s.disequilibriumInThreeCircuits == Bit(w, 6)
      && s.pvInputShort == Bit(w, 4)
      && s.fault == Bit(w, 1)
      && s.running == Bit(w, 0)
  {
    FlagIsBit(w, 13); FlagIsBit(w, 12); FlagIsBit(w, 11); FlagIsBit(w, 10);
    FlagIsBit(w, 9); FlagIsBit(w, 8); FlagIsBit(w, 7); FlagIsBit(w, 6);
    FlagIsBit(w, 4); FlagIsBit(w, 1); FlagIsBit(w, 0);
  }

  /** Bits 3-2 set to 0b11 report equalization charging. */
  lemma EqualizationWhenBits3And2Set(w: nat)
    requires (w / 4) % 4 == 3
    ensures DecodeChargingEquipmentStatus(w).value.charging == Equalization
  {
  }

  // ---------------------------------------------------------------------
  // Discharging equipment status, register 0x3202
  // ---------------------------------------------------------------------

  /** Bits 15-14 of the discharging equipment status register. */
  datatype DischargeInputVoltage = DischargeInputNormal | InputLow | InputHigh | NoAccess

  /** Bits 13-12 of the discharging equipment status register. */
  datatype OutputPowerLoad = LightLoad | ModerateLoad | RatedLoad | Overload

  const DISCHARGE_INPUT_VOLTAGES: seq<DischargeInputVoltage> :=
    [DischargeInputNormal, InputLow, InputHigh, NoAccess]
  const OUTPUT_POWER_LOADS: seq<OutputPowerLoad> := [LightLoad, ModerateLoad, RatedLoad, Overload]

  function DischargeInputCode(s: DischargeInputVoltage): nat
  {
    match s
    case DischargeInputNormal => 0
    case InputLow => 1
    case InputHigh => 2
    case NoAccess => 3
  }

  function LoadCode(s: OutputPowerLoad): nat
  {
    match s
    case LightLoad => 0
    case ModerateLoad => 1
    case RatedLoad => 2
    case Overload => 3
  }

  datatype DischargingEquipmentStatus = DischargingEquipmentStatus(
    inputVoltage: DischargeInputVoltage, // bits 15-14
    outputPowerLoad: OutputPowerLoad,    // bits 13-12
    shortCircuit: bool,                  // bit 11
    unableToDischarge: bool,             // bit 10
    unableToStopDischarging: bool,       // bit 9
    outputVoltageAbnormal: bool,         // bit 8
    inputOverVoltage: bool,              // bit 7
    shortCircuitInHighVoltageSide: bool, // bit 6
    boostOverVoltage: bool,              // bit 5
    outputOverVoltage: bool,             // bit 4
    fault: bool,                         // bit 1
    running: bool                        // bit 0
  )

  /** `get_discharging_equipment_status` after the register read; it never fails either. */
  function DecodeDischargingEquipmentStatus(w: nat): (r: Result<DischargingEquipmentStatus, Error>)
    ensures r.Success?
    ensures DischargeInputCode(r.value.inputVoltage) == (w / 0x4000) % 4
    ensures LoadCode(r.value.outputPowerLoad) == (w / 0x1000) % 4
  {
    assert Pow2(2) == 4 && Pow2(12) == 0x1000 && Pow2(14) == 0x4000;
    ExtractBitsField(w, 14, 2);
    ExtractBitsField(w, 12, 2);
    var inputCode := ExtractBits(w, 14, 3);
    var loadCode := ExtractBits(w, 12, 3);
    assert inputCode == (w / 0x4000) % 4 && loadCode == (w / 0x1000) % 4;
    match (Lookup(DISCHARGE_INPUT_VOLTAGES, inputCode), Lookup(OUTPUT_POWER_LOADS, loadCode))
    case (Failure(e), _) => Failure(e)
    case (_, Failure(e)) => Failure(e)
    case (Success(inputVoltage), Success(load)) =>
      Success(DischargingEquipmentStatus(
        inputVoltage, load,
        Flag(w, 11), Flag(w, 10), Flag(w, 9), Flag(w, 8),
        Flag(w, 7), Flag(w, 6), Flag(w, 5), Flag(w, 4),
        Flag(w, 1), Flag(w, 0)))
  }

  /** Every flag of the discharging equipment status is the bit of the word at its offset. */
  lemma DischargingEquipmentFlagsAreBits(w: nat)
    ensures var s := DecodeDischargingEquipmentStatus(w).value;
      && s.shortCircuit == Bit(w, 11)
      && s.unableToDischarge == Bit(w, 10)
      && s.unableToStopDischarging == Bit(w, 9)
      && s.outputVoltageAbnormal == Bit(w, 8)
      && s.inputOverVoltage == Bit(w, 7)
      && s.shortCircuitInHighVoltageSide == Bit(w, 6)
      && s.boostOverVoltage == Bit(w, 5)
      && s.outputOverVoltage == Bit(w, 4)
      && s.fault == Bit(w, 1)
      && s.running == Bit(w, 0)
  {
    FlagIsBit(w, 11); FlagIsBit(w, 10); FlagIsBit(w, 9); FlagIsBit(w, 8);
    FlagIsBit(w, 7); FlagIsBit(w, 6); FlagIsBit(w, 5); FlagIsBit(w, 4);
    FlagIsBit(w, 1); FlagIsBit(w, 0);
  }
}

=== FILE: voltage.dfy ===
/**
 The battery voltage control block: twelve holding registers from 0x9003
 to 0x900E, each a voltage in hundredths of a volt. The driver reads the
 block in one exchange, offers a single-register getter per slot, and
 updates any subset of slots by reading the whole block, overlaying the
 caller's values and writing the whole block back.

 The twelve slots are a closed set, so they are modelled as an
 enumeration; `Name` gives the keyword the driver uses for each.
 */
module VoltageControl {
  import opened Results
  import opened Controller

  const VOLTAGE_CONTROL_ADDRESS: nat := 0x9003
  const VOLTAGE_CONTROL_COUNT: nat := 12

  /** One slot of the block. */
  datatype VoltageParam =
    | OverVoltageDisconnect
    | ChargingLimit
    | OverVoltageReconnect
    | EqualizeCharging
    | BoostCharging
    | FloatCharging
    | BoostReconnectCharging
    | LowVoltageReconnect
    | UnderVoltageRecover
    | UnderVoltageWarning
    | LowVoltageDisconnect
    | DischargingLimit

  /** The slots in address order, as `battery_voltage_control_register_names` lists them. */
  const VOLTAGE_PARAMS: seq<VoltageParam> := [
    OverVoltageDisconnect, ChargingLimit, OverVoltageReconnect, EqualizeCharging,
    BoostCharging, FloatCharging, BoostReconnectCharging, LowVoltageReconnect,
    UnderVoltageRecover, UnderVoltageWarning, LowVoltageDisconnect, DischargingLimit
  ]

  /** The offset of a slot within the block; it inverts the address-order listing. */
  function Slot(p: VoltageParam): (i: nat)
    ensures i < VOLTAGE_CONTROL_COUNT && i < |VOLTAGE_PARAMS| && VOLTAGE_PARAMS[i] == p && p in VOLTAGE_PARAMS
  {
    match p
    case OverVoltageDisconnect => 0
    case ChargingLimit => 1
    case OverVoltageReconnect => 2
    case EqualizeCharging => 3
    case BoostCharging => 4
    case FloatCharging => 5
    case BoostReconnectCharging => 6
    case LowVoltageReconnect => 7
    case UnderVoltageRecover => 8
    case UnderVoltageWarning => 9
    case LowVoltageDisconnect => 10
    case DischargingLimit => 11
  }

  /** The listing names every slot exactly once, at the slot's own offset. */
  lemma SlotsFollowAddressOrder()
    ensures |VOLTAGE_PARAMS| == VOLTAGE_CONTROL_COUNT
    ensures forall i :: 0 <= i < VOLTAGE_CONTROL_COUNT ==> Slot(VOLTAGE_PARAMS[i]) == i
  {
  }

  /** The keyword (and dictionary key) the driver uses for a slot. */
  function Name(p: VoltageParam): string
  {
    match p
    case OverVoltageDisconnect => "over_voltage_disconnect_voltage"
    case ChargingLimit => "charging_limit_voltage"
    case OverVoltageReconnect => "over_voltage_reconnect_voltage"
    case EqualizeCharging => "equalize_charging_voltage"
    case BoostCharging => "boost_charging_voltage"
    case FloatCharging => "float_charging_voltage"
    case BoostReconnectCharging => "boost_reconnect_charging_voltage"
    case LowVoltageReconnect => "low_voltage_reconnect_voltage"
    case UnderVoltageRecover => "under_voltage_recover_voltage"
    case UnderVoltageWarning => "under_voltage_warning_voltage"
    case LowVoltageDisconnect => "low_voltage_disconnect_voltage"
    case DischargingLimit => "discharging_limit_voltage"
  }

  /** No two slots share a keyword, so a keyword picks out one slot. */
  lemma NamesDistinct(p: VoltageParam, q: VoltageParam)
    ensures Name(p) == Name(q) <==> p == q
  {
  }

  /** A keyword the grouped write accepts. */
  predicate IsVoltageControlName(k: string)
  {
    exists p :: p in VOLTAGE_PARAMS && Name(p) == k
  }

  /** A grouped update names only known slots. */
  predicate KnownNames(update: map<string, real>)
  {
    forall k :: k in update ==> IsVoltageControlName(k)
  }

  /**
   `get_battery_voltage_control_registers`: one 12-register read of the
   holding bank, every slot reported in volts. The driver returns a
   dictionary keyed by `Name`; here the values stand in address order, so
   slot `p` is at `Slot(p)`, the dictionary's own insertion order.
   */
  function GetVoltageControl(dev: Device): (x: Exchange<seq<real>>)
    ensures x.requests == [ReadRegisters(VOLTAGE_CONTROL_ADDRESS, VOLTAGE_CONTROL_COUNT, READ_HOLDING)] && x.device == dev
    ensures x.result.Success? <==> HasBlock(dev.holdingRegisters, VOLTAGE_CONTROL_ADDRESS, VOLTAGE_CONTROL_COUNT)
    ensures x.result.Success? ==>
      && |x.result.value| == VOLTAGE_CONTROL_COUNT
      && forall i :: 0 <= i < VOLTAGE_CONTROL_COUNT ==>
           x.result.value[i] == dev.holdingRegisters[VOLTAGE_CONTROL_ADDRESS + i] as real / 100.0
    ensures x.result.Failure? ==> x.result.error == TransportFailure(VOLTAGE_CONTROL_ADDRESS)
  {
    var read := ReadBlock(dev, VOLTAGE_CONTROL_ADDRESS, VOLTAGE_CONTROL_COUNT, READ_HOLDING);
    match read.result
    case Failure(e) => Exchange(read.requests, dev, Failure(e))
    case Success(raw) =>
      Exchange(read.requests, dev,
        Success(seq(VOLTAGE_CONTROL_COUNT, i requires 0 <= i < VOLTAGE_CONTROL_COUNT => raw[i] as real / 100.0)))
  }

  /** The caller's update restated over the slots: the value given for each slot it names. */
  function Overrides(update: map<string, real>): (o: map<VoltageParam, real>)
    ensures forall p :: p in o <==> Name(p) in update
    ensures forall p :: p in o ==> o[p] == update[Name(p)]
  {
    map p | p in VOLTAGE_PARAMS && Name(p) in update :: update[Name(p)]
  }

  /**
   A value in volts as the raw register word it is written as,
   `int(v * 100)`: the number of hundredths truncated toward zero. In exact
   arithmetic a value read as `w / 100` comes back as `w`; with binary
   floats it need not, which `FloatRescale` exhibits.
   */
  function Hundredths(v: real): (w: int)
    ensures v >= 0.0 ==> w as real <= v * 100.0 < w as real + 1.0
    ensures v < 0.0 ==> w as real - 1.0 < v * 100.0 <= w as real
  {
    Truncate(v * 100.0)
  }

  /**
   The raw block a grouped write sends: each slot's value after the
   overlay, scaled to hundredths, in address order.
   */
  function MergedBlock(values: seq<real>, overrides: map<VoltageParam, real>): (raw: seq<int>)
    requires |values| == VOLTAGE_CONTROL_COUNT
    ensures |raw| == VOLTAGE_CONTROL_COUNT
    ensures forall p :: raw[Slot(p)] == Hundredths(if p in overrides then overrides[p] else values[Slot(p)])
  {
    seq(VOLTAGE_CONTROL_COUNT, i requires 0 <= i < VOLTAGE_CONTROL_COUNT =>
      var p := VOLTAGE_PARAMS[i];
      Hundredths(if p in overrides then overrides[p] else values[i]))
  }

  /**
   The read-overlay-write core of a grouped write, once the keywords are
   accepted: read the block, overlay the overrides, write the whole block
   back. A failed read ends the call before any write.
   */
  function ReadMergeWrite(dev: Device, overrides: map<VoltageParam, real>): (x: Exchange<()>)
    ensures 1 <= |x.requests| <= 2
    ensures x.requests[0] == ReadRegisters(VOLTAGE_CONTROL_ADDRESS, VOLTAGE_CONTROL_COUNT, READ_HOLDING)
    ensures |x.requests| == 2 <==> HasBlock(dev.holdingRegisters, VOLTAGE_CONTROL_ADDRESS, VOLTAGE_CONTROL_COUNT)
    ensures x.result.Failure? ==> x.device == dev
    ensures !HasBlock(dev.holdingRegisters, VOLTAGE_CONTROL_ADDRESS, VOLTAGE_CONTROL_COUNT) ==>
      x == Exchange([ReadRegisters(VOLTAGE_CONTROL_ADDRESS, VOLTAGE_CONTROL_COUNT, READ_HOLDING)], dev,
                    Failure(TransportFailure(VOLTAGE_CONTROL_ADDRESS)))
  {
    var current := GetVoltageControl(dev);
    match current.result
    case Failure(e) => Exchange(current.requests, dev, Failure(e))
    case Success(values) =>
      var write := WriteBlock(dev, VOLTAGE_CONTROL_ADDRESS, MergedBlock(values, overrides));
      Exchange(current.requests + write.requests, write.device, write.result)
  }

  /**
   `set_battery_voltage_control_registers_dict` (and the keyword form,
   which forwards to it): refuse an empty update or an unknown keyword
   before any exchange, otherwise read, overlay and write back the slots
   the keywords name.
   */
  function SetVoltageControl(dev: Device, update: map<string, real>): (x: Exchange<()>)
    ensures |update| == 0 ==> x == Exchange([], dev, Failure(MissingArguments))
    ensures |update| != 0 && !KnownNames(update) ==> x == Exchange([], dev, Failure(UnexpectedArgument))
    ensures |update| != 0 && KnownNames(update) ==> x == ReadMergeWrite(dev, Overrides(update))
  {
    if |update| == 0 then
      Exchange([], dev, Failure(MissingArguments))
    else if !KnownNames(update) then
      Exchange([], dev, Failure(UnexpectedArgument))
    else
      ReadMergeWrite(dev, Overrides(update))
  }

  /**
   The word a grouped write should leave in a slot, in exact arithmetic:
   the override scaled to hundredths if there is one, else the old word.
   */
  function MergedWord(dev: Device, overrides: map<VoltageParam, real>, p: VoltageParam): int
    requires VOLTAGE_CONTROL_ADDRESS + Slot(p) in dev.holdingRegisters
  {
    if p in overrides then Hundredths(overrides[p])
    else dev.holdingRegisters[VOLTAGE_CONTROL_ADDRESS + Slot(p)]
  }

  /** Dividing a raw value by 100 and scaling it back up by 100 returns it exactly. */
  lemma HundredthsRoundTrip(w: nat)
    ensures Hundredths(w as real / 100.0) == w
  {
    assert (w as real / 100.0) * 100.0 == w as real;
  }

  /**
   Truncation, not rounding: a caller's 13.809 V is written as 1380, its
   655.355 V as 65535, and its -0.006 V as 0.
   */
  lemma HundredthsTruncates()
    ensures Hundredths(13.809) == 1380
    ensures Hundredths(655.355) == 65535
    ensures Hundredths(-0.006) == 0
  {
    assert 13.809 * 100.0 == 1380.9;
    assert 655.355 * 100.0 == 65535.5;
    assert -0.006 * 100.0 == -0.6;
  }

  /** One slot of the merged block, from the value the read reported for it. */
  lemma MergedBlockSlot(dev: Device, values: seq<real>, overrides: map<VoltageParam, real>, p: VoltageParam)
    requires |values| == VOLTAGE_CONTROL_COUNT
    requires VOLTAGE_CONTROL_ADDRESS + Slot(p) in dev.holdingRegisters
    requires values[Slot(p)] == dev.holdingRegisters[VOLTAGE_CONTROL_ADDRESS + Slot(p)] as real / 100.0
    ensures MergedBlock(values, overrides)[Slot(p)] == MergedWord(dev, overrides, p)
  {
    if p !in overrides {
      HundredthsRoundTrip(dev.holdingRegisters[VOLTAGE_CONTROL_ADDRESS + Slot(p)]);
    }
  }

  /** On a readable block the core sends the read, then the merged block. */
  lemma ReadMergeWriteSends(dev: Device, overrides: map<VoltageParam, real>)
    requires HasBlock(dev.holdingRegisters, VOLTAGE_CONTROL_ADDRESS, VOLTAGE_CONTROL_COUNT)
    ensures GetVoltageControl(dev).result.Success?
    ensures ReadMergeWrite(dev, overrides) ==
      var write := WriteBlock(dev, VOLTAGE_CONTROL_ADDRESS, MergedBlock(GetVoltageControl(dev).result.value, overrides));
      Exchange([ReadRegisters(VOLTAGE_CONTROL_ADDRESS, VOLTAGE_CONTROL_COUNT, READ_HOLDING)] + write.requests,
               write.device, write.result)
  {
  }

  /**
   On a readable block the core writes, at the block's address, twelve
   words that are slot by slot the override where one was given and, in
   exact arithmetic, the unchanged old word everywhere else.
   */
  lemma ReadMergeWriteWrites(dev: Device, overrides: map<VoltageParam, real>)
    requires HasBlock(dev.holdingRegisters, VOLTAGE_CONTROL_ADDRESS, VOLTAGE_CONTROL_COUNT)
    ensures var x := ReadMergeWrite(dev, overrides);
      && |x.requests| == 2
      && x.requests[1].WriteRegisters?
      && x.requests[1].address == VOLTAGE_CONTROL_ADDRESS
      && |x.requests[1].values| == VOLTAGE_CONTROL_COUNT
      && forall p :: x.requests[1].values[Slot(p)] == MergedWord(dev, overrides, p)
  {
    ReadMergeWriteSends(dev, overrides);
    var values := GetVoltageControl(dev).result.value;
    forall p
      ensures MergedBlock(values, overrides)[Slot(p)] == MergedWord(dev, overrides, p)
    {
      assert VOLTAGE_CONTROL_ADDRESS + Slot(p) in dev.holdingRegisters;
      MergedBlockSlot(dev, values, overrides, p);
    }
  }

  /**
   The core succeeds exactly when the block is readable and every merged
   word fits in a register.
   */
  lemma ReadMergeWriteSucceedsIff(dev: Device, overrides: map<VoltageParam, real>)
    ensures ReadMergeWrite(dev, overrides).result.Success? <==>
      && HasBlock(dev.holdingRegisters, VOLTAGE_CONTROL_ADDRESS, VOLTAGE_CONTROL_COUNT)
      && forall p :: FitsWord(MergedWord(dev, overrides, p))
  {
    if HasBlock(dev.holdingRegisters, VOLTAGE_CONTROL_ADDRESS, VOLTAGE_CONTROL_COUNT) {
      ReadMergeWriteWrites(dev, overrides);
      ReadMergeWriteSends(dev, overrides);
      var raw := MergedBlock(GetVoltageControl(dev).result.value, overrides);
      assert (forall i :: 0 <= i < |raw| ==> FitsWord(raw[i])) <==> (forall p :: FitsWord(raw[Slot(p)])) by {
        SlotsFollowAddressOrder();
      }
    }
  }

  /** A successful core write stores the merged words in the block and touches nothing else. */
  lemma ReadMergeWriteStores(dev: Device, overrides: map<VoltageParam, real>)
    requires ReadMergeWrite(dev, overrides).result.Success?
    ensures HasBlock(dev.holdingRegisters, VOLTAGE_CONTROL_ADDRESS, VOLTAGE_CONTROL_COUNT)
    ensures var x := ReadMergeWrite(dev, overrides);
      && x.device.inputRegisters == dev.inputRegisters
      && x.device.holdingRegisters.Keys == dev.holdingRegisters.Keys
      && (forall p :: x.device.holdingRegisters[VOLTAGE_CONTROL_ADDRESS + Slot(p)] == MergedWord(dev, overrides, p))
      && (forall a :: a in dev.holdingRegisters && !(VOLTAGE_CONTROL_ADDRESS <= a < VOLTAGE_CONTROL_ADDRESS + VOLTAGE_CONTROL_COUNT) ==>
            x.device.holdingRegisters[a] == dev.holdingRegisters[a])
  {
    ReadMergeWriteWrites(dev, overrides);
    ReadMergeWriteSends(dev, overrides);
  }

  /** A readable block reports each slot's stored word in hundredths. */
  lemma ReadBackSlot(dev: Device, p: VoltageParam)
    requires HasBlock(dev.holdingRegisters, VOLTAGE_CONTROL_ADDRESS, VOLTAGE_CONTROL_COUNT)
    ensures VOLTAGE_CONTROL_ADDRESS + Slot(p) in dev.holdingRegisters
    ensures GetVoltageControl(dev).result.Success?
    ensures GetVoltageControl(dev).result.value[Slot(p)] ==
      dev.holdingRegisters[VOLTAGE_CONTROL_ADDRESS + Slot(p)] as real / 100.0
  {
  }

  /**
   After a successful core write, reading the block back gives each
   overridden slot its override truncated to hundredths, and every other
   slot its old value.
   */
  lemma ReadMergeWriteThenGet(dev: Device, overrides: map<VoltageParam, real>)
    requires ReadMergeWrite(dev, overrides).result.Success?
    ensures var before := GetVoltageControl(dev);
      var after := GetVoltageControl(ReadMergeWrite(dev, overrides).device);
      && before.result.Success?
      && after.result.Success?
      && forall p :: after.result.value[Slot(p)] ==
           if p in overrides then Hundredths(overrides[p]) as real / 100.0
           else before.result.value[Slot(p)]
  {
    ReadMergeWriteStores(dev, overrides);
    var after := ReadMergeWrite(dev, overrides).device;
    assert HasBlock(after.holdingRegisters, VOLTAGE_CONTROL_ADDRESS, VOLTAGE_CONTROL_COUNT);
    forall p
      ensures GetVoltageControl(after).result.value[Slot(p)] ==
        if p in overrides then Hundredths(overrides[p]) as real / 100.0
        else GetVoltageControl(dev).result.value[Slot(p)]
    {
      ReadBackSlot(dev, p);
      ReadBackSlot(after, p);
    }
  }

  /**
   After a successful grouped write, reading the block back gives each
   slot the update names its new value truncated to hundredths, and every
   other slot its old value.
   */
  lemma SetThenGetVoltageControl(dev: Device, update: map<string, real>)
    ensures SetVoltageControl(dev, update).result.Success? ==>
      && |update| != 0 && KnownNames(update)
      && var o := Overrides(update);
         var before := GetVoltageControl(dev);
         var after := GetVoltageControl(SetVoltageControl(dev, update).device);
         && before.result.Success?
         && after.result.Success?
         && forall p :: after.result.value[Slot(p)] ==
              if p in o then Hundredths(o[p]) as real / 100.0
              else before.result.value[Slot(p)]
  {
    if SetVoltageControl(dev, update).result.Success? {
      ReadMergeWriteThenGet(dev, Overrides(update));
    }
  }

  // ---------------------------------------------------------------------
  // Per-slot voltage getters
  // ---------------------------------------------------------------------

  /** The single-register read a slot's getter `get_<Name(p)>` issues. */
  datatype SlotGetter = SlotGetter(address: nat, decimals: nat, functionCode: nat)

  /** The twelve getters as the driver defines them, one by one. */
  function VoltageGetter(p: VoltageParam): SlotGetter
  {
    match p
    case OverVoltageDisconnect => SlotGetter(0x9003, 2, 3)
    case ChargingLimit => SlotGetter(0x9004, 2, 3)
    case OverVoltageReconnect => SlotGetter(0x9005, 2, 3)
    case EqualizeCharging => SlotGetter(0x9006, 2, 3)
    case BoostCharging => SlotGetter(0x9007, 2, 3)
    case FloatCharging => SlotGetter(0x9008, 2, 3)
    case BoostReconnectCharging => SlotGetter(0x9009, 2, 3)
    case LowVoltageReconnect => SlotGetter(0x900A, 2, 3)
    case UnderVoltageRecover => SlotGetter(0x900B, 2, 3)
    case UnderVoltageWarning => SlotGetter(0x900C, 2, 3)
    case LowVoltageDisconnect => SlotGetter(0x900D, 2, 3)
    case DischargingLimit => SlotGetter(0x900E, 2, 3)
  }

  /** Each slot's getter reads the slot's own address in the block, with 2 decimals, from the holding bank. */
  lemma VoltageGettersMatchBlock(p: VoltageParam)
    ensures VoltageGetter(p) == SlotGetter(VOLTAGE_CONTROL_ADDRESS + Slot(p), 2, READ_HOLDING)
  {
  }

  /**
   Calls the single-slot getter of a slot: one two-decimal read of the
   slot's register in the block, reported in volts.
   */
  function GetVoltageSlot(dev: Device, p: VoltageParam): (x: Exchange<real>)
    ensures x.requests == [ReadRegister(VOLTAGE_CONTROL_ADDRESS + Slot(p), 2, READ_HOLDING)] && x.device == dev
    ensures x.result.Success? <==> VOLTAGE_CONTROL_ADDRESS + Slot(p) in dev.holdingRegisters
    ensures x.result.Success? ==> x.result.value * 100.0 == dev.holdingRegisters[VOLTAGE_CONTROL_ADDRESS + Slot(p)] as real
  {
    VoltageGettersMatchBlock(p);
    assert Pow10(2) == 100;
    var getter := VoltageGetter(p);
    ReadScaled(dev, getter.address, getter.decimals, getter.functionCode)
  }

  /** A slot's getter is a two-decimal read of the slot's own holding register. */
  lemma GetVoltageSlotReads(dev: Device, p: VoltageParam)
    ensures GetVoltageSlot(dev, p) == ReadScaled(dev, VOLTAGE_CONTROL_ADDRESS + Slot(p), 2, READ_HOLDING)
  {
    VoltageGettersMatchBlock(p);
  }

  /** A single-slot getter reads the value the grouped read reports for that slot. */
  lemma VoltageSlotAgreesWithBlock(dev: Device, p: VoltageParam)
    requires HasBlock(dev.holdingRegisters, VOLTAGE_CONTROL_ADDRESS, VOLTAGE_CONTROL_COUNT)
    ensures GetVoltageSlot(dev, p).result == Success(GetVoltageControl(dev).result.value[Slot(p)])
  {
    var address := VOLTAGE_CONTROL_ADDRESS + Slot(p);
    GetVoltageSlotReads(dev, p);
    assert address in dev.holdingRegisters;
    ReadHundredths(dev, address);
  }

  /** A two-decimal read of a present holding register reports the word in hundredths. */
  lemma ReadHundredths(dev: Device, address: nat)
    requires address in dev.holdingRegisters
    ensures ReadScaled(dev, address, 2, READ_HOLDING).result == Success(dev.holdingRegisters[address] as real / 100.0)
  {
    assert Pow10(2) == 100;
    assert Bank(dev, READ_HOLDING) == dev.holdingRegisters;
    var r := ReadScaled(dev, address, 2, READ_HOLDING);
    assert r.result == Success(dev.holdingRegisters[address] as real / Pow10(2) as real);
    var w: real := dev.holdingRegisters[address] as real;
    assert w / Pow10(2) as real == w / 100.0;
  }
}
